=== FILE: README.md ===
# Packer core in Dafny

A model of the per-line logic of the `Packer` class.

`Packer.parse` reads one line of the form `81 : (1,53.38,€45) (2,88.62,€98) …`. It yields a package: a package weight and an ordered list of items, each with an index, a weight and a cost. Before that it runs its checks in a fixed order:

1. the package weight must be at most 100;
2. a part after `:` must exist;
3. there must be at most fifteen tokens;
4. each token, in turn, must match the token pattern, then have a weight of at most 100, then a cost of at most 100.

`Packer.calculate` is a deterministic greedy selection, not an optimal knapsack solver:

1. It keeps the items that weigh strictly less than the package weight.
2. It sorts them stably by cost, most expensive first.
3. Each item seeds one greedy combination.
4. It groups the combinations by total cost, keeping the lighter one on a tie.
5. It prints the indices of the most expensive group, lightest item first, or `-` when no item fits.

The comparators and the weight sum of `src/utils.ts`, and the two interfaces of `src/packer.interface.ts`, are modelled too.

Modules, in dependency order:

- `Wrappers`: `Option` and `Result`.
- `Text`: the string primitives the source relies on:
  - `split` and `join`;
  - `trim` with JavaScript's white-space set;
  - `parseInt` without a radix, covering leading space, sign, the `0x` prefix, the longest digit prefix and NaN;
  - decimal printing of indices.
- `Types`: `Item` and `Package`. The package weight is a `JsInt`: either NaN or an integer, which is what `parseInt` can return.
- `Utils`: `sortReverseByCost`, `sortByWeight` and `weightSum`.
- `Sorting`: a stable insertion sort for either comparator.
- `Token`: the token pattern as a deterministic leftmost scan, with its groups as a `Match`.
- `Parser`: `Packer.parse` and the order of its checks.
- `Selector`: `Packer.calculate`.
- `Examples` and `ParseExamples`: the lines of the test suite, each proved to give its expected outcome.

Weights and costs are exact `real`s. The thrown `ApiError` becomes `Err(ApiError(message))`. The `TypeError` that a line without `:` causes becomes `Err(ItemsPartMissing)`.

## Model

| member | source | states |
|---|---|---|
| Parser.Parse | src/packer.ts:30-84 | a parsed package carries the `parseInt` of the trimmed text before the first `:` as its weight |
| Parser.TargetCheckedFirst | src/packer.ts:38-44 | a package weight over 100 fails the line with the weight message, whatever follows |
| Parser.MissingItemsCheckedSecond | src/packer.ts:38-46 | a line without `:` whose weight passes fails on its missing item part |
| Parser.ItemCountCheckedBeforeTokens | src/packer.ts:46-51 | more than fifteen space-separated tokens fail the line with the count message, before any token is looked at |
| Parser.FirstFailingTokenDecides | src/packer.ts:53-78 | once weight and count pass, the line fails exactly when some token fails, and then with the error of the first failing token |
| Parser.ParsedPackageBounds | src/packer.ts:38-83 | a parsed package has an accepted weight, one item per token in token order, at most fifteen items, and every weight and cost between 0 and 100 |
| Parser.ItemPartBounds | src/packer.ts:46-83 | the same shape for the item part on its own |
| Parser.CheckToken | src/packer.ts:53-77 | an accepted token yields an item whose weight and cost lie between 0 and 100 |
| Parser.CheckTokenOrder | src/packer.ts:55-77 | a token that does not match fails with the format message naming the whole line; a match then fails on weight over 100, then on cost over 100, and otherwise yields the item of its groups |
| Parser.IndexReadsAsParseInt | src/packer.ts:74 | the item's index is what `parseInt` reads from the index group |
| Parser.ItemOf | src/packer.ts:73-77 | no contract of its own; `IndexReadsAsParseInt` states that its index is what `parseInt` reads from the index group, and `DecimalValue` that its weight and cost are the values their groups write |
| Parser.DecimalValue | src/packer.ts:75-76 | a decimal group reads as the exact number it writes: all its digits read as one integer, divided by ten to the number of fraction digits; so it lies between its whole part and the next integer |
| Text.DigitsValueConcat | src/packer.ts:75-76 | reading two digit strings one after the other shifts the first past the digits of the second and adds the second |
| Parser.ParseItemPart | src/packer.ts:46-83 | the rest of `parse` after the weight check keeps the weight it was given; its count and token checks are stated by `ItemCountCheckedBeforeTokens`, `FirstFailingTokenDecides` and `ItemPartBounds` |
| Parser.MapOrFail | src/packer.ts:53-78 | mapping the token check over the tokens gives one result per token when it succeeds; `MapOrFailOk` and `MapOrFailFirstFailure` state which |
| Parser.ParseItems | src/packer.ts:53-78 | no contract of its own; `FirstFailingTokenDecides` states that it succeeds exactly when every token passes, and otherwise fails with the error of the first failing token |
| Parser.MapOrFailOk | src/packer.ts:53-78 | mapping the token check succeeds exactly when every token succeeds, each result at its token's position |
| Parser.MapOrFailFirstFailure | src/packer.ts:53-78 | a failed mapping carries the error of the first failing token |
| Parser.WrittenTokenChecks | src/packer.ts:53-77 | a token written from well-formed groups within the limits checks back into the item of those groups |
| Parser.WrittenLineParses | src/packer.ts:30-84 | a line written from an accepted package weight and one to fifteen such tokens parses back into exactly that package |
| Token.Scan | src/packer.ts:36 | a match found in a token has digit groups in the shape of the pattern |
| Token.MatchAt | src/packer.ts:36 | a match found at a position starts there, has groups in the shape of the pattern, and is written out by the text at that position; `MatchAtComplete` and `ScanLeftmost` state the converse |
| Token.ScanLeftmost | src/packer.ts:36 | the scan reports the leftmost position at which the pattern matches, and nothing matches when it reports none |
| Token.MatchAtComplete | src/packer.ts:36 | whatever groups are written at a position, with the cost run ending there, are the match found at that position |
| Token.ScanParenthesized | src/packer.ts:36 | a bracketed token written from its groups scans back into those groups |
| Token.ScanNeedsDigit | src/packer.ts:36 | text without a digit never matches |
| Text.Split | src/packer.ts:38 | the pieces hold no separator and join back into the input |
| Text.SplitJoin | src/packer.ts:46 | splitting pieces joined by a separator they do not contain gives the pieces back |
| Text.Trim | src/packer.ts:38 | the result neither starts nor ends with white space |
| Text.TrimInfix | src/packer.ts:38 | trimming removes only white space, and only at the ends |
| Text.TrimIdempotent | src/packer.ts:38 | trimming twice is trimming once |
| Text.ParseInt | src/packer.ts:40 | no contract of its own; `ParseIntNeedsDigit`, `ParseIntDecimalPrefix` and `ParseIntNatToString` state how it reads the package weight (also at :81) and the index (at :74) |
| Text.ParseIntNeedsDigit | src/packer.ts:40 | `parseInt` of text without a decimal digit is NaN |
| Text.ParseIntDecimalPrefix | src/packer.ts:40 | `parseInt` reads a leading decimal digit run and ignores what follows it |
| Text.ParseIntNatToString | src/packer.ts:74 | `parseInt` reads a printed index back as that index |
| Text.NatToString | src/packer.ts:132 | an index prints as a non-empty digit string without a leading zero whose value is the index |
| Text.NatToStringOfDigits | src/packer.ts:132 | a digit string without a leading zero is the printing of its own value |
| Utils.SortReverseByCost | src/utils.ts:3-4 | the result is -1 when the first cost is larger, 1 when it is smaller, and 0 otherwise |
| Utils.SortByWeight | src/utils.ts:5-6 | the result is -1 when the first weight is smaller, 1 when it is larger, and 0 otherwise |
| Utils.ComparatorsAntisymmetric | src/utils.ts:3-6 | swapping the arguments negates either comparator |
| Utils.WeightSum | src/utils.ts:8-10 | the sum is non-negative when every weight is |
| Utils.CostSum | src/packer.ts:101-112 | no contract of its own; the running cost `tCost` is stated to equal it by `Step`, `Grow` and `SeedCombination` |
| Utils.WeightSumAppend | src/utils.ts:8-10 | the sum of nothing is 0, and appending an item adds its weight |
| Utils.WeightSumConcat | src/utils.ts:8-10 | the sum of a concatenation is the sum of the sums |
| Sorting.CompareIsKeyOrder | src/utils.ts:3-6 | each comparator orders items by one key: cost descending or weight ascending |
| Sorting.InsertPermutes | src/packer.ts:92 | inserting an item adds exactly that item to the multiset |
| Sorting.StableSort | src/packer.ts:92 | no contract of its own; `StableSortIsStable` and `SortedStableIsUnique` state what it returns, both for the cost sort here and the weight sort at :131 |
| Sorting.StableSortIsStable | src/packer.ts:92 | the sort returns a permutation of its input, sorted by the comparator, with every group of equal keys in input order |
| Sorting.SortedStableIsUnique | src/packer.ts:131 | two sorted sequences with the same equal-key groups are equal, so a stable sort has exactly one answer |
| Sorting.StableSortIsSortedGroups | src/packer.ts:92 | the stable sort of a list is any sorted list holding the same items of each key, in the same order |
| Selector.FilterFitting | src/packer.ts:88-90 | no contract of its own; `FilterFittingOne`, `FilterFittingConcat` and `FilterFittingMembers` state what it keeps and in which order |
| Selector.FilterFittingOne | src/packer.ts:90 | a single item is kept exactly when it weighs strictly less than the package weight, and nothing is kept of nothing |
| Selector.FilterFittingConcat | src/packer.ts:88-90 | the filter of a concatenation is the concatenation of the filters, so the kept items stay in line order |
| Selector.Candidates | src/packer.ts:87-92 | no contract of its own; `CandidatesMembers` and `CandidatesOrder` state that it holds exactly the fitting items, sorted by cost with equal costs in line order |
| Selector.FilterFittingMembers | src/packer.ts:88-90 | the filter keeps exactly the items weighing strictly less than the package weight |
| Selector.CandidatesMembers | src/packer.ts:87-92 | the sorted candidates are exactly the fitting items |
| Selector.CandidatesOrder | src/packer.ts:88-92 | the candidates are sorted by cost, most expensive first, and those of equal cost are the fitting items of that cost in line order |
| Selector.Step | src/packer.ts:104-113 | one inner step keeps the running totals and stays within the package weight; it appends the item exactly when its index is not the seed's and the weight so far plus its own stays within the package weight, and otherwise leaves the combination as it was |
| Selector.Start | src/packer.ts:100-102 | the combination a seed starts holds running weight and cost equal to the sums over its items |
| Selector.Grow | src/packer.ts:104-114 | the inner loop only appends, keeping its totals and the weight bound; which candidates it takes is stated by `SeedCombinationIsGreedy` |
| Selector.GrowConcat | src/packer.ts:104-114 | the inner loop over two runs of candidates is the loop over the second, started from where the first ended |
| Selector.GrowAddsCandidates | src/packer.ts:104-114 | everything the inner loop appends is a candidate without the seed's index |
| Selector.SeedCombination | src/packer.ts:99-114 | a seeded combination starts with its seed, keeps its totals and stays within the package weight |
| Selector.SeedCombinationIsGreedy | src/packer.ts:104-114 | a candidate is taken exactly when its index is not the seed's and it fits beside what the candidates before it left; what is taken stays in the seed's final combination |
| Selector.SeedCombinationShape | src/packer.ts:102-114 | every later item of a seeded combination is a candidate whose index differs from the seed's |
| Selector.Combinations | src/packer.ts:99-114 | one combination per candidate, the `k`-th seeded by the `k`-th candidate, each keeping its totals and staying within the package weight |
| Selector.SeedCombinations | src/packer.ts:99-114 | one combination per candidate of the package; `SeedCombinationsAt` states which |
| Selector.SeedCombinationsAt | src/packer.ts:99-114 | the `j`-th combination of a package is the one its `j`-th candidate seeds, among all its candidates and within the package weight |
| Selector.Record | src/packer.ts:116-124 | no contract of its own; `GroupKeepsWinners` states what the recorded map holds |
| Selector.Group | src/packer.ts:97-125 | no contract of its own; `GroupKeys` and `GroupKeepsWinners` state its keys and the combination kept under each |
| Selector.MaxCost | src/packer.ts:127 | the largest total cost bounds every combination and is the cost of one of them |
| Selector.Best | src/packer.ts:127-128 | no contract of its own; `BestIsBest` states that there is none exactly when there are no combinations, and otherwise it is the items of the best one |
| Selector.Chosen | src/packer.ts:95-128 | no contract of its own; `ChosenIsBest` states that there is none exactly when no item fits, and otherwise it is the best seeded combination |
| Selector.GroupKeepsWinners | src/packer.ts:116-125 | the cost map holds exactly the costs that occur, each with its lightest combination and, among equally light ones, the earliest |
| Selector.BestIsBest | src/packer.ts:127-128 | the combination read from the map has the largest cost and is the lightest, then earliest, with that cost |
| Selector.ChosenIsBest | src/packer.ts:86-128 | the answer is absent exactly when nothing fits, and is otherwise the best seeded combination |
| Selector.BestIsUnique | src/packer.ts:116-128 | only one combination is best |
| Selector.ChosenIsFeasible | src/packer.ts:99-128 | the chosen items fit the package, come from it, total at most its weight, and only the seed carries its index |
| Selector.CalculateDash | src/packer.ts:88-95 | the answer is `-` exactly when no item weighs strictly less than the package weight |
| Selector.IndexList | src/packer.ts:132-133 | no contract of its own; `CalculatePrintsSortedIndices` and `IndexListReadsBack` state the printed text |
| Selector.Calculate | src/packer.ts:86-134 | no contract of its own; `CalculateDash`, `ChosenIsBest` and `CalculatePrintsSortedIndices` state its answer |
| Selector.IndexListReadsBack | src/packer.ts:132-133 | splitting a printed index list at commas and reading each piece gives the indices in order |
| Selector.CalculatePrintsSortedIndices | src/packer.ts:130-133 | the answer is exactly the chosen combination's indices in decimal, joined by commas, ordered by weight ascending with equal weights in their previous order; read back, it gives those indices |
| Examples.TieBreakPrefersLighter | src/packer.spec.ts:90-96 | the test package of seven items answers `7`, the lighter of two combinations of equal cost |
| ParseExamples.TieLineAnswer | src/packer.spec.ts:90-96 | the test line parses into those seven items with weight 81, and calculating on it answers `7` |
| ParseExamples.TokenWithoutNumbers | src/packer.spec.ts:39-41 | `str: (str)m` fails with the format message naming the line |
| ParseExamples.TargetOverLimit | src/packer.spec.ts:43-47 | `200 : (1,15.3,€34)` fails with the package weight message |
| ParseExamples.ItemWeightOverLimit | src/packer.spec.ts:49-53 | `100 : (1,115.3,€34)` fails with the item weight message |
| ParseExamples.ItemCostOverLimit | src/packer.spec.ts:55-59 | `100 : (1,15.3,€134)` fails with the item cost message |
| ParseExamples.TooManyTokens | src/packer.spec.ts:61-67 | a line of weight at most 100 with the tokens `(1)` to `(n)`, n over fifteen, fails with the count message |
| ParseExamples.TooManyTokensLine | src/packer.ts:38-51 | any line with an accepted weight and more than fifteen tokens fails on the count, whatever the tokens are |
| ParseExamples.WordlikeLine | src/packer.ts:38-55 | a one-token line with no digit on either side of `:` fails as a format error |
| ParseExamples.WrittenTokenLine | src/packer.ts:53-83 | a one-token line fails on the token's weight, then on its cost, and otherwise yields that one item |

## Left out

- `Packer.pack` (src/packer.ts:8-28) is not modelled. It checks that a file exists, streams it line by line and joins the answers with newlines; this is file I/O.
- The `ApiError` class: `src/error.ts` is not part of this model. An error is a datatype carrying its message.
- Token.Scan: a Dafny `char` is a Unicode scalar value, but the pattern's any-character marker matches one UTF-16 code unit, because the pattern has no `u` flag. A marker outside the Basic Multilingual Plane is two code units in JavaScript, so the source finds no match at that position. The model reads the match there. The source refuses such a token, unless a later position of the token matches; then it reads that later match's index, weight and cost.
- Parser.CheckToken: weights and costs are exact decimals, not IEEE-754 doubles. `parseFloat` rounds `100.00000000000000001` to 100, which the source accepts and the model refuses as over the limit.
- Parser.DecimalValue: the weight and cost groups read as exact values, not as the nearest double.
- Selector.Record: costs are summed exactly, so totals that differ only by floating-point rounding share one group in the model but may sit under two different map keys in the source.
- Utils.WeightSum: sums exactly, without floating-point rounding of the running total.
- Selector.Fits: a package weight that `parseInt` reads as NaN passes the weight check, because `NaN > 100` is false. Every comparison with NaN is false, so no item fits and the answer is `-`. The model keeps NaN as a value of `JsInt` for this reason.
- Parser.Parse: a line without `:` leaves the item part undefined in the source, and its `split` throws a `TypeError`. The model returns `ItemsPartMissing` at the same point, after the weight check.
- Parser.IndexReadsAsParseInt: indices are unbounded naturals. `parseInt` loses precision from 2^53 on, so at src/packer.ts:106 two distinct large indices can compare equal in the source but not in the model.
- Text.ParseInt: returns an exact integer. `parseInt` returns a double, which is inexact from 2^53 on, and the package weight check compares that double.
- Selector.IndexList: prints every index in full decimal. From 10^21 on, JavaScript prints numbers in exponent form (`1e+21`) when joining.
- Sorting.StableSortIsStable: the model's sort is stable, as `Array.prototype.sort` is required to be from ECMAScript 2019 on. On an older engine with an unstable sort, the source could order items of equal cost or equal weight differently.

=== FILE: examples.dfy ===
/** Worked examples taken from the repository's unit tests. */
module Examples {
  import opened Wrappers
  import opened Text
  import opened Types
  import opened Utils
  import opened Sorting
  import opened Selector

  const I1 := Item(1, 53.38, 45.0)
  const I2 := Item(2, 88.62, 98.0)
  const I3 := Item(3, 78.48, 3.0)
  const I4 := Item(4, 72.30, 76.0)
  const I5 := Item(5, 30.18, 9.0)
  const I6 := Item(6, 46.34, 48.0)
  const I7 := Item(7, 70.30, 76.0)

  lemma FilterCons(x: Item, rest: seq<Item>, w: JsInt)
    ensures FilterFitting([x] + rest, w) == (if Fits(x, w) then [x] else []) + FilterFitting(rest, w)
  {
    assert ([x] + rest)[1..] == rest;
  }

  lemma SortCons(o: Order, x: Item, rest: seq<Item>)
    ensures StableSort(o, [x] + rest) == Insert(o, x, StableSort(o, rest))
  {
    assert ([x] + rest)[1..] == rest;
  }

  /** Filtering keeps every item of a list whose items all fit. */
  lemma {:induction false} FilterAllFit(xs: seq<Item>, w: JsInt)
    requires forall i :: 0 <= i < |xs| ==> Fits(xs[i], w)
    ensures FilterFitting(xs, w) == xs
  {
    if xs != [] {
      FilterAllFit(xs[1..], w);
      assert [xs[0]] + xs[1..] == xs;
    }
  }

  lemma LastFiveFit()
    ensures forall i :: 0 <= i < |[I3, I4, I5, I6, I7]| ==> Fits([I3, I4, I5, I6, I7][i], Int(81))
  {
  }

  lemma FilterStep()
    ensures FilterFitting([I1, I2, I3, I4, I5, I6, I7], Int(81)) == [I1, I3, I4, I5, I6, I7]
  {
    var w := Int(81);
    var tail := [I3, I4, I5, I6, I7];
    LastFiveFit();
    FilterAllFit(tail, w);
    FilterCons(I2, tail, w);
    FilterCons(I1, [I2] + tail, w);
    assert [I1] + ([I2] + tail) == [I1, I2, I3, I4, I5, I6, I7];
    assert [I1] + ([] + tail) == [I1, I3, I4, I5, I6, I7];
  }

  /** Both orders of the fitting items hold the same items of each cost, in the same order. */
  lemma TieKeyGroups(k: real)
    ensures WithKey(ByCostDescending, [I1, I3, I4, I5, I6, I7], k) == WithKey(ByCostDescending, [I4, I7, I6, I1, I5, I3], k)
  {
    var o := ByCostDescending;
    WithKeyCons(o, I7, [], k);
    WithKeyCons(o, I6, [I7], k);
    WithKeyCons(o, I5, [I6, I7], k);
    WithKeyCons(o, I4, [I5, I6, I7], k);
    WithKeyCons(o, I3, [I4, I5, I6, I7], k);
    WithKeyCons(o, I1, [I3, I4, I5, I6, I7], k);
    WithKeyCons(o, I3, [], k);
    WithKeyCons(o, I5, [I3], k);
    WithKeyCons(o, I1, [I5, I3], k);
    WithKeyCons(o, I6, [I1, I5, I3], k);
    WithKeyCons(o, I7, [I6, I1, I5, I3], k);
    WithKeyCons(o, I4, [I7, I6, I1, I5, I3], k);
  }

  lemma TieCandidatesSorted()
    ensures IsSorted(ByCostDescending, [I4, I7, I6, I1, I5, I3])
  {
  }

  lemma SortStep()
    ensures StableSort(ByCostDescending, [I1, I3, I4, I5, I6, I7]) == [I4, I7, I6, I1, I5, I3]
  {
    var o := ByCostDescending;
    var s, t := [I1, I3, I4, I5, I6, I7], [I4, I7, I6, I1, I5, I3];
    TieCandidatesSorted();
    forall k ensures WithKey(o, s, k) == WithKey(o, t, k) {
      TieKeyGroups(k);
    }
    StableSortIsSortedGroups(o, s, t);
  }

  /** The candidates of the equal-cost test line, most expensive first. */
  const TieCandidates: seq<Item> := [I4, I7, I6, I1, I5, I3]

  /** An item the inner loop passes over: it shares the seed's index or would overfill the package. */
  predicate Skipped(seed: Item, limit: int, acc: Combo, x: Item) {
    seed.index == x.index || acc.tWeight + x.weight > limit as real
  }

  /** The combination with one more item. */
  function Add(acc: Combo, x: Item): Combo {
    Combo(acc.items + [x], acc.tWeight + x.weight, acc.tCost + x.cost)
  }

  lemma GrowSkips(seed: Item, candidates: seq<Item>, limit: int, acc: Combo)
    requires Tracked(acc) && acc.tWeight <= limit as real
    requires candidates != [] && Skipped(seed, limit, acc, candidates[0])
    ensures Grow(seed, candidates, limit, acc) == Grow(seed, candidates[1..], limit, acc)
  {
  }

  /** The inner loop passes over the candidates from `j` to `k` when it skips each of them. */
  lemma {:induction false} GrowSkipsRange(seed: Item, candidates: seq<Item>, j: nat, k: nat, limit: int, acc: Combo)
    requires Tracked(acc) && acc.tWeight <= limit as real
    requires j <= k <= |candidates|
    requires forall i :: j <= i < k ==> Skipped(seed, limit, acc, candidates[i])
    ensures Grow(seed, candidates[j..], limit, acc) == Grow(seed, candidates[k..], limit, acc)
    decreases k - j
  {
    if j < k {
      assert candidates[j..][0] == candidates[j] && candidates[j..][1..] == candidates[j + 1..];
      GrowSkips(seed, candidates[j..], limit, acc);
      GrowSkipsRange(seed, candidates, j + 1, k, limit, acc);
    }
  }

  /** The inner loop adds candidate `k` when it does not skip it. */
  lemma GrowAdds(seed: Item, candidates: seq<Item>, k: nat, limit: int, acc: Combo)
    requires Tracked(acc) && acc.tWeight <= limit as real
    requires k < |candidates| && !Skipped(seed, limit, acc, candidates[k])
    ensures Tracked(Add(acc, candidates[k])) && Add(acc, candidates[k]).tWeight <= limit as real
    ensures Grow(seed, candidates[k..], limit, acc) == Grow(seed, candidates[k + 1..], limit, Add(acc, candidates[k]))
  {
    assert Step(seed, limit, acc, candidates[k]) == Add(acc, candidates[k]);
    assert candidates[k..][0] == candidates[k] && candidates[k..][1..] == candidates[k + 1..];
  }

  /** The search from a seed runs over all the candidates. */
  lemma SeedRun(seed: Item, candidates: seq<Item>, limit: int)
    requires seed.weight < limit as real
    ensures Tracked(Start(seed))
    ensures SeedCombination(seed, candidates, limit) == Grow(seed, candidates[0..], limit, Start(seed))
    ensures Grow(seed, candidates[|candidates|..], limit, Start(seed)) == Start(seed)
  {
    assert candidates[0..] == candidates;
    assert candidates[|candidates|..] == [];
  }

  /** A seed whose every candidate is skipped stays alone. */
  lemma Alone(seed: Item, limit: int)
    requires seed.weight < limit as real
    requires forall i :: 0 <= i < |TieCandidates| ==> Skipped(seed, limit, Start(seed), TieCandidates[i])
    ensures SeedCombination(seed, TieCandidates, limit) == Start(seed)
  {
    SeedRun(seed, TieCandidates, limit);
    GrowSkipsRange(seed, TieCandidates, 0, 6, limit, Start(seed));
  }

  /** Item 6 takes item 5 and nothing else: total cost 57. */
  lemma SeedSix()
    ensures SeedCombination(I6, TieCandidates, 81).tCost == 57.0
  {
    var c := TieCandidates;
    var acc := Start(I6);
    SeedRun(I6, c, 81);
    GrowSkipsRange(I6, c, 0, 4, 81, acc);
    GrowAdds(I6, c, 4, 81, acc);
    var next := Add(acc, I5);
    GrowSkipsRange(I6, c, 5, 6, 81, next);
    assert c[6..] == [];
  }

  /** Item 5 takes item 6 and nothing else: total cost 57. */
  lemma SeedFive()
    ensures SeedCombination(I5, TieCandidates, 81).tCost == 57.0
  {
    var c := TieCandidates;
    var acc := Start(I5);
    SeedRun(I5, c, 81);
    GrowSkipsRange(I5, c, 0, 2, 81, acc);
    GrowAdds(I5, c, 2, 81, acc);
    var next := Add(acc, I6);
    GrowSkipsRange(I5, c, 3, 6, 81, next);
    assert c[6..] == [];
  }

  /** The six seed combinations of the equal-cost test line: two of cost 76, the others cheaper. */
  lemma SeedsOfTieLine()
    ensures SeedCombination(I4, TieCandidates, 81) == Combo([I4], 72.30, 76.0)
    ensures SeedCombination(I7, TieCandidates, 81) == Combo([I7], 70.30, 76.0)
    ensures SeedCombination(I6, TieCandidates, 81).tCost == 57.0
    ensures SeedCombination(I1, TieCandidates, 81).tCost == 45.0
    ensures SeedCombination(I5, TieCandidates, 81).tCost == 57.0
    ensures SeedCombination(I3, TieCandidates, 81).tCost == 3.0
  {
    Alone(I4, 81);
    Alone(I7, 81);
    Alone(I1, 81);
    Alone(I3, 81);
    SeedSix();
    SeedFive();
  }

  /** When the first two combinations share the largest cost and the second is lighter, the second is best. */
  lemma SecondOfTwoTied(cs: seq<Combo>, key: real)
    requires |cs| >= 2 && cs[0].tCost == key && cs[1].tCost == key
    requires forall i :: 2 <= i < |cs| ==> cs[i].tCost < key
    requires WeightSum(cs[1].items) < WeightSum(cs[0].items)
    ensures IsBest(cs, 1)
  {
  }

  lemma TieCandidatesFit()
    ensures forall x :: x in TieCandidates ==> x.weight < 81.0
  {
    forall x | x in TieCandidates ensures x.weight < 81.0 {
      var i :| 0 <= i < |TieCandidates| && TieCandidates[i] == x;
    }
  }

  /** The combinations of the equal-cost line: item 4 alone, item 7 alone, then four cheaper ones. */
  lemma CombinationsOfTieLine()
    ensures forall x :: x in TieCandidates ==> x.weight < 81.0
    ensures var cs := Combinations(TieCandidates, 81);
      && |cs| == 6 && cs[0] == Combo([I4], 72.30, 76.0) && cs[1] == Combo([I7], 70.30, 76.0)
      && cs[2].tCost < 76.0 && cs[3].tCost < 76.0 && cs[4].tCost < 76.0 && cs[5].tCost < 76.0
  {
    var c := TieCandidates;
    TieCandidatesFit();
    CombinationAt(c, 81, 0);
    CombinationAt(c, 81, 1);
    CombinationAt(c, 81, 2);
    CombinationAt(c, 81, 3);
    CombinationAt(c, 81, 4);
    CombinationAt(c, 81, 5);
    SeedsOfTieLine();
  }

  /** The `k`-th combination is the one seeded by the `k`-th candidate. */
  lemma CombinationAt(c: seq<Item>, limit: int, k: int)
    requires forall x :: x in c ==> x.weight < limit as real
    requires 0 <= k < |c|
    ensures Combinations(c, limit)[k] == SeedCombination(c[k], c, limit)
  {
  }

  /** Combination 1, item 7 alone, is the best combination of the equal-cost line. */
  lemma BestOfTieLine()
    ensures forall x :: x in TieCandidates ==> x.weight < 81.0
    ensures IsBest(Combinations(TieCandidates, 81), 1)
    ensures Combinations(TieCandidates, 81)[1].items == [I7]
  {
    CombinationsOfTieLine();
    var cs := Combinations(TieCandidates, 81);
    assert WeightSum([I4]) == 72.30 && WeightSum([I7]) == 70.30 by {
      WeightSumAppend([], I4);
      WeightSumAppend([], I7);
      assert [] + [I4] == [I4] && [] + [I7] == [I7];
    }
    forall i | 2 <= i < |cs| ensures cs[i].tCost < 76.0 {
      if i == 2 {} else if i == 3 {} else if i == 4 {} else {}
    }
    SecondOfTwoTied(cs, 76.0);
  }

  /** The fitting items of the equal-cost line, most expensive first. */
  lemma CandidatesOfTieLine()
    ensures Candidates(Package(Int(81), [I1, I2, I3, I4, I5, I6, I7])) == TieCandidates
  {
    FilterStep();
    SortStep();
  }

  /** The equal-cost line reports item 7 alone. */
  lemma ChosenOfTieLine()
    ensures Chosen(Package(Int(81), [I1, I2, I3, I4, I5, I6, I7])) == Some([I7])
  {
    var p := Package(Int(81), [I1, I2, I3, I4, I5, I6, I7]);
    CandidatesOfTieLine();
    BestOfTieLine();
    var cs := SeedCombinations(p);
    assert cs == Combinations(TieCandidates, 81);
    ChosenIsBest(p);
    var j :| IsBest(cs, j) && Chosen(p).value == cs[j].items;
    BestIsUnique(cs, j, 1);
  }

  /**
   The equal-cost test line: items 4 and 7 both reach the largest total cost
   76 on their own; item 7 is lighter, so the answer is `7`.
   */
  lemma TieBreakPrefersLighter()
    ensures Calculate(Package(Int(81), [I1, I2, I3, I4, I5, I6, I7])) == "7"
  {
    ChosenOfTieLine();
    SortCons(ByWeightAscending, I7, []);
    assert [I7] + [] == [I7];
    assert NatToString(7) == "7";
  }
}

=== FILE: parse_examples.dfy ===
/**
 The parser's test lines: which check refuses each of them, and the
 equal-cost line parsed and answered end to end.
 */
module ParseExamples {
  import opened Wrappers
  import opened Text
  import opened Types
  import opened Token
  import opened Parser
  import opened Selector
  import opened Examples

  // ------------------------------------------------------------ numerals

  lemma OneDigit(a: char)
    requires IsDigit(a)
    ensures DigitsValue([a]) == a as int - '0' as int
  {
    assert [a][..0] == [];
    assert RadixValue([a], false) == RadixValue([], false) * 10 + DigitValue(a, false);
  }

  lemma TwoDigits(a: char, b: char)
    requires IsDigit(a) && IsDigit(b)
    ensures DigitsValue([a, b]) == (a as int - '0' as int) * 10 + (b as int - '0' as int)
  {
    assert [a, b][..1] == [a];
    OneDigit(a);
  }

  lemma ThreeDigits(a: char, b: char, c: char)
    requires IsDigit(a) && IsDigit(b) && IsDigit(c)
    ensures DigitsValue([a, b, c]) == (a as int - '0' as int) * 100 + (b as int - '0' as int) * 10 + (c as int - '0' as int)
  {
    assert [a, b, c][..2] == [a, b];
    TwoDigits(a, b);
  }

  lemma Value100()
    ensures DigitsValue("100") == 100
  {
    ThreeDigits('1', '0', '0');
    assert "100" == ['1', '0', '0'];
  }

  lemma Value200()
    ensures DigitsValue("200") == 200
  {
    ThreeDigits('2', '0', '0');
    assert "200" == ['2', '0', '0'];
  }

  /** A package weight written as digits and one space reads as that number. */
  lemma WeightReads(digits: string)
    requires |digits| > 0 && AllDigits(digits)
    ensures Trim(digits + " ") == digits
    ensures ParseInt(Trim(digits + " ")) == Int(DigitsValue(digits))
  {
    assert IsDigit(digits[0]) && IsDigit(digits[|digits| - 1]);
    TrimSpaceAfter(digits);
    assert digits + [] == digits;
    ParseIntDecimalPrefix(digits, []);
  }

  // ------------------------------------------------------ one-token lines

  /** A line holding a single token after `: `, whose package weight passes, has that token's outcome. */
  lemma OneTokenLine(line: string, target: string, token: string)
    requires line == target + [':'] + ([' '] + token)
    requires ':' !in target && ':' !in token && ' ' !in token
    requires token != [] && !IsJsSpace(token[0]) && !IsJsSpace(token[|token| - 1])
    requires var w := ParseInt(Trim(target)); w.NaN? || w.value <= WEIGHT_LIMIT
    ensures CheckToken(line, token).Err? ==> Parse(line) == Err(CheckToken(line, token).error)
    ensures CheckToken(line, token).Ok? ==> Parse(line) == Ok(Package(ParseInt(Trim(target)), [CheckToken(line, token).value]))
  {
    LineParts(target, [' '] + token);
    TrimSpaceBefore(token);
    SplitNoSeparator(token, ' ');
    assert Parse(line) == ParseItemPart(line, ParseInt(Trim(target)), token);
    var f := t => CheckToken(line, t);
    assert [token][1..] == [];
    assert MapOrFail(f, []) == Ok([]);
    assert f(token) == CheckToken(line, token);
    if CheckToken(line, token).Ok? {
      assert [CheckToken(line, token).value] + [] == [CheckToken(line, token).value];
    }
  }

  /** A line holding one written token after `: `: the token's weight and cost decide. */
  lemma WrittenTokenLine(line: string, target: string, m: Match)
    requires line == target + [':'] + ([' '] + TokenText(m))
    requires WellFormed(m) && m.at == 1 && m.marker != ':' && m.marker != ' '
    requires ':' !in target
    requires var w := ParseInt(Trim(target)); w.NaN? || w.value <= WEIGHT_LIMIT
    ensures var it := ItemOf(m);
      && (it.weight > 100.0 ==> Parse(line) == Err(ApiError(ItemWeightMessage)))
      && (it.weight <= 100.0 && it.cost > 100.0 ==> Parse(line) == Err(ApiError(ItemCostMessage)))
      && (it.weight <= 100.0 && it.cost <= 100.0 ==> Parse(line) == Ok(Package(ParseInt(Trim(target)), [it])))
  {
    var token := TokenText(m);
    TokenTextShape(m);
    OneTokenLine(line, target, token);
    ScanParenthesized(m);
    CheckTokenOrder(line, token);
  }

  // -------------------------------------------------------- weight over 100

  /** A line whose package weight part is digits and one space, followed by exactly one `:`. */
  lemma DigitsTarget(line: string, digits: string, rest: string)
    requires line == digits + " " + [':'] + rest
    requires |digits| > 0 && AllDigits(digits) && ':' !in rest
    ensures TargetText(line) == digits && ParseInt(TargetText(line)) == Int(DigitsValue(digits))
    ensures ItemsText(line) == Some(Trim(rest))
  {
    assert ':' !in digits + " " by {
      assert forall i :: 0 <= i < |digits| ==> digits[i] != ':';
    }
    LineParts(digits + " ", rest);
    WeightReads(digits);
  }

  /** A package weight of 200 is refused before the items are looked at. */
  lemma TargetOverLimit()
    ensures Parse("200 : (1,15.3,€34)") == Err(ApiError(TargetWeightMessage))
  {
    var line := "200 : (1,15.3,€34)";
    assert line == "200" + " " + [':'] + " (1,15.3,€34)";
    DigitsTarget(line, "200", " (1,15.3,€34)");
    Value200();
    TargetCheckedFirst(line);
  }

  // ------------------------------------------------------- token shape error

  /** Text without a digit and without white space at its ends. */
  predicate Wordlike(t: string) {
    t != [] && !IsJsSpace(t[0]) && !IsJsSpace(t[|t| - 1]) && forall i :: 0 <= i < |t| ==> !IsDigit(t[i])
  }

  /**
   A line of one token after `: ` where neither the package weight part nor
   the token holds a digit: the weight reads as NaN and passes, and the
   token is refused as a format error naming the line.
   */
  lemma WordlikeLine(line: string, target: string, token: string)
    requires line == target + [':'] + ([' '] + token)
    requires Wordlike(target) && Wordlike(token)
    requires ':' !in target && ':' !in token && ' ' !in token
    ensures Parse(line) == Err(ApiError(FormatMessage(line)))
  {
    TrimUnpadded(target);
    ParseIntNeedsDigit(target);
    ScanNeedsDigit(token);
    CheckTokenOrder(line, token);
    OneTokenLine(line, target, token);
  }

  lemma StrFacts()
    ensures Wordlike("str") && Wordlike("(str)m")
    ensures ':' !in "str" && ':' !in "(str)m" && ' ' !in "(str)m"
    ensures "str: (str)m" == "str" + [':'] + ([' '] + "(str)m")
  {
    assert forall i :: 0 <= i < |"(str)m"| ==> !IsDigit("(str)m"[i]);
  }

  /** A token without the index, weight and cost groups is refused as a format error naming the line. */
  lemma TokenWithoutNumbers()
    ensures Parse("str: (str)m") == Err(ApiError(FormatMessage("str: (str)m")))
  {
    StrFacts();
    WordlikeLine("str: (str)m", "str", "(str)m");
  }

  // ------------------------------------------------- item weight and cost

  /** The groups of `(1,115.3,€34)`. */
  const HeavyToken := Match(1, "1", Decimal("115", "3"), '€', Decimal("34", ""))
  /** The groups of `(1,15.3,€134)`. */
  const CostlyToken := Match(1, "1", Decimal("15", "3"), '€', Decimal("134", ""))

  lemma HeavyTokenFacts()
    ensures TokenText(HeavyToken) == "(1,115.3,€34)"
    ensures WellFormed(HeavyToken) && ItemOf(HeavyToken).weight > 100.0
  {
    ThreeDigits('1', '1', '5');
    assert "115" == ['1', '1', '5'];
  }

  lemma CostlyTokenFacts()
    ensures TokenText(CostlyToken) == "(1,15.3,€134)"
    ensures WellFormed(CostlyToken) && ItemOf(CostlyToken).weight <= 100.0 && ItemOf(CostlyToken).cost > 100.0
  {
    TwoDigits('1', '5');
    OneDigit('3');
    ThreeDigits('1', '3', '4');
    assert "15" == ['1', '5'] && "3" == ['3'] && "134" == ['1', '3', '4'];
  }

  /** A line `100 : t` for one written token `t`: the token's weight and cost decide. */
  lemma HundredLine(line: string, m: Match)
    requires line == "100 " + [':'] + ([' '] + TokenText(m))
    requires WellFormed(m) && m.at == 1 && m.marker != ':' && m.marker != ' '
    ensures var it := ItemOf(m);
      && (it.weight > 100.0 ==> Parse(line) == Err(ApiError(ItemWeightMessage)))
      && (it.weight <= 100.0 && it.cost > 100.0 ==> Parse(line) == Err(ApiError(ItemCostMessage)))
  {
    assert ':' !in "100 ";
    assert "100" + " " == "100 ";
    WeightReads("100");
    Value100();
    WrittenTokenLine(line, "100 ", m);
  }

  /** An item weight of 115.3 is refused, though the package weight of exactly 100 passes. */
  lemma ItemWeightOverLimit()
    ensures Parse("100 : (1,115.3,€34)") == Err(ApiError(ItemWeightMessage))
  {
    var line := "100 : (1,115.3,€34)";
    HeavyTokenFacts();
    assert line == "100 " + [':'] + ([' '] + TokenText(HeavyToken));
    HundredLine(line, HeavyToken);
  }

  /** An item cost of 134 is refused once the weight 15.3 has passed. */
  lemma ItemCostOverLimit()
    ensures Parse("100 : (1,15.3,€134)") == Err(ApiError(ItemCostMessage))
  {
    var line := "100 : (1,15.3,€134)";
    CostlyTokenFacts();
    assert line == "100 " + [':'] + ([' '] + TokenText(CostlyToken));
    HundredLine(line, CostlyToken);
  }

  // ------------------------------------------------------- too many tokens

  /** A line whose item part joins more than fifteen tokens is refused on the count alone. */
  lemma TooManyTokensLine(line: string, target: string, parts: seq<string>)
    requires line == target + [':'] + ([' '] + Join(parts, ' '))
    requires |parts| > ITEMS_LIMIT
    requires forall i :: 0 <= i < |parts| ==> ':' !in parts[i] && ' ' !in parts[i]
    requires |parts[0]| > 0 && !IsJsSpace(parts[0][0])
    requires |parts[|parts| - 1]| > 0 && !IsJsSpace(parts[|parts| - 1][|parts[|parts| - 1]| - 1])
    requires ':' !in target
    requires var w := ParseInt(Trim(target)); w.NaN? || w.value <= WEIGHT_LIMIT
    ensures Parse(line) == Err(ApiError(ItemsLimitMessage))
  {
    var items := Join(parts, ' ');
    assert ':' !in [' '] + items by {
      JoinAvoids(parts, ' ', ':');
    }
    LineParts(target, [' '] + items);
    assert Trim([' '] + items) == items by {
      JoinFirst(parts, ' ');
      JoinLast(parts, ' ');
      TrimSpaceBefore(items);
    }
    SplitJoin(parts, ' ');
    ItemCountCheckedBeforeTokens(line);
  }

  /** The tokens `(1)` to `(n)`, the shape of the count test line's item part. */
  function Numbered(n: nat): (r: seq<string>)
    ensures |r| == n
  {
    if n == 0 then [] else Numbered(n - 1) + ["(" + NatToString(n) + ")"]
  }

  /** A token in brackets, holding neither `:` nor a space. */
  predicate Bracketed(t: string) {
    |t| >= 2 && t[0] == '(' && t[|t| - 1] == ')' && ':' !in t && ' ' !in t
  }

  lemma NumberedToken(k: nat)
    ensures Bracketed("(" + NatToString(k) + ")")
  {
    var d := NatToString(k);
    assert forall i :: 0 <= i < |d| ==> IsDigit(d[i]);
  }

  lemma {:induction false} NumberedShape(n: nat)
    ensures forall i :: 0 <= i < n ==> Bracketed(Numbered(n)[i])
  {
    if n > 0 {
      NumberedShape(n - 1);
      NumberedToken(n);
      assert Numbered(n) == Numbered(n - 1) + ["(" + NatToString(n) + ")"];
    }
  }

  /** A line whose package weight part is a decimal weight of at most 100 and one space passes the weight check. */
  lemma DecimalTarget(line: string, w: nat, rest: string)
    requires line == NatToString(w) + [' '] + [':'] + rest
    requires w <= WEIGHT_LIMIT && ':' !in rest
    ensures TargetAccepted(line) && ItemsText(line) == Some(Trim(rest))
  {
    var digits := NatToString(w);
    assert ':' !in digits + [' '] by {
      assert forall i :: 0 <= i < |digits| ==> IsDigit(digits[i]);
    }
    LineParts(digits + [' '], rest);
    WeightReads(digits);
    assert digits + " " == digits + [' '];
  }

  /** More than fifteen bracketed tokens joined by spaces, after one space, count as too many. */
  lemma BracketedItems(parts: seq<string>)
    requires |parts| > ITEMS_LIMIT
    requires forall i :: 0 <= i < |parts| ==> Bracketed(parts[i])
    ensures ':' !in [' '] + Join(parts, ' ')
    ensures |Split(Trim([' '] + Join(parts, ' ')), ' ')| > ITEMS_LIMIT
  {
    var items := Join(parts, ' ');
    assert Bracketed(parts[0]) && Bracketed(parts[|parts| - 1]);
    JoinAvoids(parts, ' ', ':');
    JoinFirst(parts, ' ');
    JoinLast(parts, ' ');
    TrimSpaceBefore(items);
    SplitJoin(parts, ' ');
  }

  /**
   A line `w : (1) (2) ... (n)` with a package weight of at most 100 and
   more than fifteen tokens is refused on the count alone; the test line
   has the weight 75 and sixteen tokens.
   */
  lemma TooManyTokens(w: nat, n: nat)
    requires w <= WEIGHT_LIMIT && n > ITEMS_LIMIT
    ensures Parse(NatToString(w) + [' '] + [':'] + ([' '] + Join(Numbered(n), ' '))) == Err(ApiError(ItemsLimitMessage))
  {
    var line := NatToString(w) + [' '] + [':'] + ([' '] + Join(Numbered(n), ' '));
    NumberedShape(n);
    BracketedItems(Numbered(n));
    DecimalTarget(line, w, [' '] + Join(Numbered(n), ' '));
    ItemCountCheckedBeforeTokens(line);
  }

  // ------------------------------------------------------ equal-cost line

  /** A weight of two whole digits and two fraction digits reads as that number of hundredths. */
  lemma TwoByTwo(a: char, b: char, c: char, d: char)
    requires IsDigit(a) && IsDigit(b) && IsDigit(c) && IsDigit(d)
    ensures DecimalValue(Decimal([a, b], [c, d]))
      == DigitsValue([a, b]) as real + ((c as int - '0' as int) * 10 + (d as int - '0' as int)) as real / 100.0
  {
    TwoDigits(c, d);
    assert Pow10(2) == 100;
  }

  lemma NoFraction(whole: string)
    requires |whole| > 0 && AllDigits(whole)
    ensures DecimalValue(Decimal(whole, [])) == DigitsValue(whole) as real
  {
    assert DigitsValue([]) == 0;
  }

  /** A token of one index digit, a weight of two digits and two fraction digits, and a cost of two digits. */
  lemma TwoDigitCostToken(i: char, w1: char, w2: char, f1: char, f2: char, c1: char, c2: char)
    requires IsDigit(i) && IsDigit(w1) && IsDigit(w2) && IsDigit(f1) && IsDigit(f2) && IsDigit(c1) && IsDigit(c2)
    ensures var m := Match(1, [i], Decimal([w1, w2], [f1, f2]), '€', Decimal([c1, c2], []));
      && Writable(m)
      && ItemOf(m) == Item(DigitValue(i, false), (DigitValue(w1, false) * 10 + DigitValue(w2, false)) as real + (DigitValue(f1, false) * 10 + DigitValue(f2, false)) as real / 100.0,
                           (DigitValue(c1, false) * 10 + DigitValue(c2, false)) as real)
  {
    OneDigit(i);
    TwoDigits(w1, w2);
    TwoByTwo(w1, w2, f1, f2);
    TwoDigits(c1, c2);
    NoFraction([c1, c2]);
  }

  /** The same with a cost of one digit. */
  lemma OneDigitCostToken(i: char, w1: char, w2: char, f1: char, f2: char, c: char)
    requires IsDigit(i) && IsDigit(w1) && IsDigit(w2) && IsDigit(f1) && IsDigit(f2) && IsDigit(c)
    ensures var m := Match(1, [i], Decimal([w1, w2], [f1, f2]), '€', Decimal([c], []));
      && Writable(m)
      && ItemOf(m) == Item(DigitValue(i, false), (DigitValue(w1, false) * 10 + DigitValue(w2, false)) as real + (DigitValue(f1, false) * 10 + DigitValue(f2, false)) as real / 100.0,
                           DigitValue(c, false) as real)
  {
    OneDigit(i);
    TwoDigits(w1, w2);
    TwoByTwo(w1, w2, f1, f2);
    OneDigit(c);
    NoFraction([c]);
  }

  /** The tokens of the equal-cost test line. */
  const T1 := Match(1, "1", Decimal("53", "38"), '€', Decimal("45", ""))
  const T2 := Match(1, "2", Decimal("88", "62"), '€', Decimal("98", ""))
  const T3 := Match(1, "3", Decimal("78", "48"), '€', Decimal("3", ""))
  const T4 := Match(1, "4", Decimal("72", "30"), '€', Decimal("76", ""))
  const T5 := Match(1, "5", Decimal("30", "18"), '€', Decimal("9", ""))
  const T6 := Match(1, "6", Decimal("46", "34"), '€', Decimal("48", ""))
  const T7 := Match(1, "7", Decimal("70", "30"), '€', Decimal("76", ""))

  lemma TieToken1()
    ensures Writable(T1) && ItemOf(T1) == I1
  {
    TwoDigitCostToken('1', '5', '3', '3', '8', '4', '5');
  }

  lemma TieToken2()
    ensures Writable(T2) && ItemOf(T2) == I2
  {
    TwoDigitCostToken('2', '8', '8', '6', '2', '9', '8');
  }

  lemma TieToken3()
    ensures Writable(T3) && ItemOf(T3) == I3
  {
    OneDigitCostToken('3', '7', '8', '4', '8', '3');
  }

  lemma TieToken4()
    ensures Writable(T4) && ItemOf(T4) == I4
  {
    TwoDigitCostToken('4', '7', '2', '3', '0', '7', '6');
  }

  lemma TieToken5()
    ensures Writable(T5) && ItemOf(T5) == I5
  {
    OneDigitCostToken('5', '3', '0', '1', '8', '9');
  }

  lemma TieToken6()
    ensures Writable(T6) && ItemOf(T6) == I6
  {
    TwoDigitCostToken('6', '4', '6', '3', '4', '4', '8');
  }

  lemma TieToken7()
    ensures Writable(T7) && ItemOf(T7) == I7
  {
    TwoDigitCostToken('7', '7', '0', '3', '0', '7', '6');
  }

  const TieTokens: seq<Match> := [T1, T2, T3, T4, T5, T6, T7]

  lemma TieTokensWritable()
    ensures forall i :: 0 <= i < |TieTokens| ==> Writable(TieTokens[i])
  {
    forall i | 0 <= i < |TieTokens|
      ensures Writable(TieTokens[i])
    {
      if i == 0 { TieToken1(); }
      else if i == 1 { TieToken2(); }
      else if i == 2 { TieToken3(); }
      else if i == 3 { TieToken4(); }
      else if i == 4 { TieToken5(); }
      else if i == 5 { TieToken6(); }
      else { TieToken7(); }
    }
  }

  lemma TieItemsOf()
    ensures Writable(T1) && Writable(T2) && Writable(T3) && Writable(T4) && Writable(T5) && Writable(T6) && Writable(T7)
    ensures forall i :: 0 <= i < |TieTokens| ==> Writable(TieTokens[i])
    ensures ItemsOf(TieTokens) == [ItemOf(T1), ItemOf(T2), ItemOf(T3), ItemOf(T4), ItemOf(T5), ItemOf(T6), ItemOf(T7)]
  {
    TieToken1();
    TieToken2();
    TieToken3();
    TieToken4();
    TieToken5();
    TieToken6();
    TieToken7();
    TieTokensWritable();
  }

  lemma TieItems()
    ensures forall i :: 0 <= i < |TieTokens| ==> Writable(TieTokens[i])
    ensures ItemsOf(TieTokens) == [I1, I2, I3, I4, I5, I6, I7]
  {
    TieItemsOf();
    TieToken1();
    TieToken2();
    TieToken3();
    TieToken4();
    TieToken5();
    TieToken6();
    TieToken7();
  }

  lemma TieText1()
    ensures TokenText(T1) == "(1,53.38,€45)"
  {
  }

  lemma TieText2()
    ensures TokenText(T2) == "(2,88.62,€98)"
  {
  }

  lemma TieText3()
    ensures TokenText(T3) == "(3,78.48,€3)"
  {
  }

  lemma TieText4()
    ensures TokenText(T4) == "(4,72.30,€76)"
  {
  }

  lemma TieText5()
    ensures TokenText(T5) == "(5,30.18,€9)"
  {
  }

  lemma TieText6()
    ensures TokenText(T6) == "(6,46.34,€48)"
  {
  }

  lemma TieText7()
    ensures TokenText(T7) == "(7,70.30,€76)"
  {
  }

  lemma TieTokenTexts()
    ensures TokenTexts(TieTokens) == ["(1,53.38,€45)", "(2,88.62,€98)", "(3,78.48,€3)", "(4,72.30,€76)",
                                      "(5,30.18,€9)", "(6,46.34,€48)", "(7,70.30,€76)"]
  {
    var t := TokenTexts(TieTokens);
    TieText1();
    assert t[0] == "(1,53.38,€45)";
    TieText2();
    assert t[1] == "(2,88.62,€98)";
    TieText3();
    assert t[2] == "(3,78.48,€3)";
    TieText4();
    assert t[3] == "(4,72.30,€76)";
    TieText5();
    assert t[4] == "(5,30.18,€9)";
    TieText6();
    assert t[5] == "(6,46.34,€48)";
    TieText7();
    assert t[6] == "(7,70.30,€76)";
  }

  /** The value alone of a package weight written as digits and one space. */
  lemma WeightValue(digits: string)
    requires |digits| > 0 && AllDigits(digits)
    ensures ParseInt(Trim(digits + " ")) == Int(DigitsValue(digits))
  {
    WeightReads(digits);
  }

  lemma TwoDigitText(a: char, b: char)
    requires IsDigit(a) && IsDigit(b)
    ensures |[a, b]| > 0 && AllDigits([a, b])
  {
  }

  /** Two digits and a space read as the two-digit number. */
  lemma PaddedTwo(a: char, b: char)
    requires IsDigit(a) && IsDigit(b)
    ensures ParseInt(Trim([a, b] + " ")) == Int((a as int - '0' as int) * 10 + (b as int - '0' as int))
  {
    TwoDigitText(a, b);
    WeightValue([a, b]);
    TwoDigits(a, b);
  }

  lemma Text81()
    ensures ['8', '1'] + " " == "81 " && ':' !in "81 "
  {
  }

  lemma Weight81()
    ensures ':' !in "81 " && ParseInt(Trim("81 ")) == Int(81)
  {
    Text81();
    PaddedTwo('8', '1');
  }

  /** The equal-cost line written from its tokens parses into the items 1 to 7 under the package weight 81. */
  lemma TieLineParses()
    ensures Parse(LineText("81 ", TieTokens)) == Ok(Package(Int(81), [I1, I2, I3, I4, I5, I6, I7]))
  {
    TieItems();
    Weight81();
    WrittenLineParses("81 ", TieTokens);
  }

  /** Two pieces of text with a space between them. */
  function Spaced(a: string, b: string): string {
    a + [' '] + b
  }

  /**
   The equal-cost test line,
   `81 : (1,53.38,€45) (2,88.62,€98) (3,78.48,€3) (4,72.30,€76) (5,30.18,€9) (6,46.34,€48) (7,70.30,€76)`.
   */
  const TieLine := "81 " + [':'] + ([' '] + Spaced("(1,53.38,€45)", Spaced("(2,88.62,€98)", Spaced("(3,78.48,€3)",
                   Spaced("(4,72.30,€76)", Spaced("(5,30.18,€9)", Spaced("(6,46.34,€48)", "(7,70.30,€76)")))))))

  /** Joining with spaces puts the first part, a space, and the joined rest. */
  lemma JoinFront(parts: seq<string>)
    requires |parts| >= 2
    ensures Join(parts, ' ') == Spaced(parts[0], Join(parts[1..], ' '))
  {
  }

  /** The equal-cost test line is the line written from its tokens under the package weight part `81 `. */
  lemma TieLineWritten()
    ensures TieLine == LineText("81 ", TieTokens)
  {
    TieTokenTexts();
    var t := TokenTexts(TieTokens);
    JoinFront(t);
    JoinFront(t[1..]);
    JoinFront(t[2..]);
    JoinFront(t[3..]);
    JoinFront(t[4..]);
    JoinFront(t[5..]);
  }

  /** The equal-cost test line parses into items 1 to 7 and is answered with item 7 alone. */
  lemma TieLineAnswer()
    ensures Parse(TieLine) == Ok(Package(Int(81), [I1, I2, I3, I4, I5, I6, I7]))
    ensures Calculate(Parse(TieLine).value) == "7"
  {
    TieLineWritten();
    TieLineParses();
    TieBreakPrefersLighter();
  }
}

=== FILE: parser.dfy ===
/**
 `Packer.parse`: one text line to a package. The checks run in a fixed order:
 the package weight limit, then the presence of the item part, then the item
 count, then each token in turn (shape, then weight, then cost). The first
 failing check decides the error.
 */
module Parser {
  import opened Wrappers
  import opened Text
  import opened Types
  import opened Token

  const WEIGHT_LIMIT: int := 100
  const ITEMS_LIMIT: int := 15
  const ITEM_MAX_WEIGHT_COST: int := 100

  /**
   The packer's errors: its own error kind with a message, and the failure
   of reading the item part of a line that has no `:` at all.
   */
  datatype ParseError = ApiError(message: string) | ItemsPartMissing

  const TargetWeightMessage := "Target package weight should not be more than 100"
  const ItemsLimitMessage := "Items in line should not be more than 15"
  const ItemWeightMessage := "Item weight should not be more than 100"
  const ItemCostMessage := "Item cost should not be more than 100"

  function FormatMessage(line: string): string {
    "Line \"" + line + "\" format is incorrect"
  }

  /** The text before the first `:`, trimmed: the package weight. */
  function TargetText(line: string): string {
    Trim(Split(line, ':')[0])
  }

  /** The text between the first and the second `:`, trimmed, if the line has a `:`. */
  function ItemsText(line: string): Option<string> {
    var pieces := Split(line, ':');
    if |pieces| >= 2 then Some(Trim(pieces[1])) else None
  }

  /**
   The exact value of a matched number, as `parseFloat` reads it: all its
   digits read as one integer, scaled down past the fraction digits.
   */
  function DecimalValue(d: Decimal): (v: real)
    requires WellFormedDecimal(d)
    ensures v >= 0.0
    ensures DigitsValue(d.whole) as real <= v < DigitsValue(d.whole) as real + 1.0
    ensures AllDigits(d.whole + d.frac) && v == DigitsValue(d.whole + d.frac) as real / Pow10(|d.frac|) as real
  {
    var w, f, p := DigitsValue(d.whole), DigitsValue(d.frac), Pow10(|d.frac|);
    DigitsBelowPow10(d.frac);
    DigitsValueConcat(d.whole, d.frac);
    ScaledFraction(w, f, p, DigitsValue(d.whole + d.frac));
    w as real + f as real / p as real
  }

  /** Whole part `w` and fraction digits `f` below `p`, read as one integer `total`. */
  lemma ScaledFraction(w: nat, f: nat, p: int, total: int)
    requires f < p && total == w * p + f
    ensures w as real <= w as real + f as real / p as real < w as real + 1.0
    ensures w as real + f as real / p as real == total as real / p as real
  {
    QuotientBelowOne(f as real, p as real);
    assert f as real / p as real * p as real == f as real;
    assert (w * p) as real == w as real * p as real;
  }

  /** A string of `n` decimal digits is worth less than `10^n`. */
  lemma {:induction false} DigitsBelowPow10(s: string)
    requires AllDigits(s)
    ensures DigitsValue(s) < Pow10(|s|)
  {
    if s != [] {
      var init := s[..|s| - 1];
      assert AllDigits(init);
      DigitsBelowPow10(init);
      assert DigitsValue(s) == DigitsValue(init) * 10 + DigitValue(s[|s| - 1], false);
    }
  }

  lemma QuotientBelowOne(a: real, b: real)
    requires 0.0 <= a < b
    ensures a / b < 1.0
  {
    assert a / b * b == a;
  }

  /** The item a well-formed match describes. */
  function ItemOf(m: Match): Item
    requires WellFormed(m)
  {
    Item(DigitsValue(m.index), DecimalValue(m.weight), DecimalValue(m.cost))
  }

  /** The index group reads the same through `parseInt`. */
  lemma IndexReadsAsParseInt(m: Match)
    requires WellFormed(m)
    ensures ParseInt(m.index) == Int(ItemOf(m).index)
  {
    assert m.index + [] == m.index;
    ParseIntDecimalPrefix(m.index, []);
  }

  /** One token: its shape, then its weight, then its cost. */
  function CheckToken(line: string, token: string): (r: Result<Item, ParseError>)
    ensures r.Ok? ==> 0.0 <= r.value.weight <= ITEM_MAX_WEIGHT_COST as real
    ensures r.Ok? ==> 0.0 <= r.value.cost <= ITEM_MAX_WEIGHT_COST as real
  {
    match Scan(token)
    case None => Err(ApiError(FormatMessage(line)))
    case Some(m) =>
      var weight := DecimalValue(m.weight);
      var cost := DecimalValue(m.cost);
      if weight > ITEM_MAX_WEIGHT_COST as real then Err(ApiError(ItemWeightMessage))
      else if cost > ITEM_MAX_WEIGHT_COST as real then Err(ApiError(ItemCostMessage))
      else Ok(ItemOf(m))
  }

  /**
   A token is refused for its shape first, then for its weight, then for its
   cost; an accepted token gives the item its groups describe.
   */
  lemma CheckTokenOrder(line: string, token: string)
    ensures Scan(token).None? ==> CheckToken(line, token) == Err(ApiError(FormatMessage(line)))
    ensures Scan(token).Some? ==> var it := ItemOf(Scan(token).value);
      && (it.weight > 100.0 ==> CheckToken(line, token) == Err(ApiError(ItemWeightMessage)))
      && (it.weight <= 100.0 && it.cost > 100.0 ==> CheckToken(line, token) == Err(ApiError(ItemCostMessage)))
      && (it.weight <= 100.0 && it.cost <= 100.0 ==> CheckToken(line, token) == Ok(it))
  {
  }

  /**
   Mapping a function that may throw over a sequence: the results in order,
   or the first exception, which stops the mapping.
   */
  function MapOrFail<T, U, E>(f: T -> Result<U, E>, xs: seq<T>): (r: Result<seq<U>, E>)
    ensures r.Ok? ==> |r.value| == |xs|
  {
    if xs == [] then Ok([])
    else
      match f(xs[0])
      case Err(e) => Err(e)
      case Ok(y) =>
        match MapOrFail(f, xs[1..])
        case Err(e) => Err(e)
        case Ok(ys) => Ok([y] + ys)
  }

  /** The mapping succeeds exactly when every element does, and then result `i` is `f(xs[i])`. */
  lemma {:induction false} MapOrFailOk<T, U, E>(f: T -> Result<U, E>, xs: seq<T>)
    ensures MapOrFail(f, xs).Ok? <==> forall i :: 0 <= i < |xs| ==> f(xs[i]).Ok?
    ensures MapOrFail(f, xs).Ok? ==> forall i :: 0 <= i < |xs| ==> MapOrFail(f, xs).value[i] == f(xs[i]).value
  {
    if xs != [] {
      MapOrFailOk(f, xs[1..]);
      assert forall i :: 1 <= i < |xs| ==> xs[i] == xs[1..][i - 1];
    }
  }

  /** A failure is the failure of some element all of whose predecessors succeeded. */
  lemma {:induction false} MapOrFailFirstFailure<T, U, E>(f: T -> Result<U, E>, xs: seq<T>)
    requires MapOrFail(f, xs).Err?
    ensures exists k :: 0 <= k < |xs| && f(xs[k]) == Err(MapOrFail(f, xs).error)
                          && forall i :: 0 <= i < k ==> f(xs[i]).Ok?
  {
    var e := MapOrFail(f, xs).error;
    if f(xs[0]).Err? {
      assert f(xs[0]) == Err(e);
    } else {
      MapOrFailFirstFailure(f, xs[1..]);
      var k :| 0 <= k < |xs| - 1 && f(xs[1..][k]) == Err(e) && forall i :: 0 <= i < k ==> f(xs[1..][i]).Ok?;
      assert f(xs[k + 1]) == Err(e);
      forall i | 0 <= i < k + 1 ensures f(xs[i]).Ok? {
        if i > 0 { assert xs[i] == xs[1..][i - 1]; }
      }
    }
  }

  /** The tokens of the item part, each checked in turn. */
  function ParseItems(line: string, tokens: seq<string>): Result<seq<Item>, ParseError>
  {
    MapOrFail(token => CheckToken(line, token), tokens)
  }

  /** `Packer.parse`. */
  function Parse(line: string): (r: Result<Package, ParseError>)
    ensures r.Ok? ==> r.value.totalWeight == ParseInt(TargetText(line))
  {
    var pieces := Split(line, ':');
    var totalWeight := ParseInt(Trim(pieces[0]));
    if totalWeight.Int? && totalWeight.value > WEIGHT_LIMIT then Err(ApiError(TargetWeightMessage))
    else if |pieces| < 2 then Err(ItemsPartMissing)
    else ParseItemPart(line, totalWeight, Trim(pieces[1]))
  }

  /** The rest of `Packer.parse` once the package weight has passed: the item count, then the tokens. */
  function ParseItemPart(line: string, totalWeight: JsInt, itemPart: string): (r: Result<Package, ParseError>)
    ensures r.Ok? ==> r.value.totalWeight == totalWeight
  {
    var itemsSplitted := Split(itemPart, ' ');
    if |itemsSplitted| > ITEMS_LIMIT then Err(ApiError(ItemsLimitMessage))
    else
      match ParseItems(line, itemsSplitted)
      case Err(e) => Err(e)
      case Ok(items) => Ok(Package(totalWeight, items))
  }

  /**
   An accepted item part holds at most fifteen tokens, each checked into the
   item at its own position, each weighing and costing between 0 and 100.
   */
  lemma ItemPartBounds(line: string, totalWeight: JsInt, itemPart: string)
    requires ParseItemPart(line, totalWeight, itemPart).Ok?
    ensures var p := ParseItemPart(line, totalWeight, itemPart).value; var tokens := Split(itemPart, ' ');
      && |p.items| == |tokens| <= ITEMS_LIMIT
      && (forall i :: 0 <= i < |tokens| ==> CheckToken(line, tokens[i]) == Ok(p.items[i]))
      && (forall i :: 0 <= i < |p.items| ==> 0.0 <= p.items[i].weight <= 100.0 && 0.0 <= p.items[i].cost <= 100.0)
  {
    var tokens := Split(itemPart, ' ');
    var f := token => CheckToken(line, token);
    assert ParseItemPart(line, totalWeight, itemPart).value.items == MapOrFail(f, tokens).value;
    MapOrFailOk(f, tokens);
  }

  /** The package weight is within its limit, or is not a number at all. */
  predicate TargetAccepted(line: string) {
    var w := ParseInt(TargetText(line));
    w.NaN? || w.value <= WEIGHT_LIMIT
  }

  /** A package weight over the limit fails the line before anything else is looked at. */
  lemma TargetCheckedFirst(line: string)
    requires !TargetAccepted(line)
    ensures Parse(line) == Err(ApiError(TargetWeightMessage))
  {
  }

  /** A line without `:` whose weight passes fails on its missing item part. */
  lemma MissingItemsCheckedSecond(line: string)
    requires TargetAccepted(line) && ItemsText(line).None?
    ensures Parse(line) == Err(ItemsPartMissing)
  {
  }

  /** Too many tokens fail the line whatever the tokens look like. */
  lemma ItemCountCheckedBeforeTokens(line: string)
    requires TargetAccepted(line) && ItemsText(line).Some?
    requires |Split(ItemsText(line).value, ' ')| > ITEMS_LIMIT
    ensures Parse(line) == Err(ApiError(ItemsLimitMessage))
  {
  }

  /**
   Once the weight and the count pass, the line fails exactly when a token
   fails, and then with the error of the first failing token.
   */
  lemma FirstFailingTokenDecides(line: string)
    requires TargetAccepted(line) && ItemsText(line).Some?
    requires |Split(ItemsText(line).value, ' ')| <= ITEMS_LIMIT
    ensures var tokens := Split(ItemsText(line).value, ' ');
      Parse(line).Err? <==> exists k :: 0 <= k < |tokens| && CheckToken(line, tokens[k]).Err?
    ensures var tokens := Split(ItemsText(line).value, ' ');
      Parse(line).Err? ==> exists k :: 0 <= k < |tokens| && CheckToken(line, tokens[k]) == Err(Parse(line).error)
                             && forall i :: 0 <= i < k ==> CheckToken(line, tokens[i]).Ok?
  {
    var tokens := Split(ItemsText(line).value, ' ');
    var f := token => CheckToken(line, token);
    assert Parse(line) == ParseItemPart(line, ParseInt(TargetText(line)), ItemsText(line).value);
    assert Parse(line).Err? <==> MapOrFail(f, tokens).Err?;
    MapOrFailOk(f, tokens);
    if Parse(line).Err? {
      assert Parse(line).error == MapOrFail(f, tokens).error;
      MapOrFailFirstFailure(f, tokens);
    }
  }

  /**
   A parsed package has a weight within its limit (or NaN), at most fifteen
   items, one per token and in token order, each weighing and costing between
   0 and 100 inclusive.
   */
  lemma ParsedPackageBounds(line: string)
    requires Parse(line).Ok?
    ensures TargetAccepted(line) && ItemsText(line).Some?
    ensures var p := Parse(line).value; var tokens := Split(ItemsText(line).value, ' ');
      && p.totalWeight == ParseInt(TargetText(line))
      && |p.items| == |tokens| <= ITEMS_LIMIT
      && (forall i :: 0 <= i < |tokens| ==> CheckToken(line, tokens[i]) == Ok(p.items[i]))
      && (forall i :: 0 <= i < |p.items| ==> 0.0 <= p.items[i].weight <= 100.0 && 0.0 <= p.items[i].cost <= 100.0)
  {
    var pieces := Split(line, ':');
    assert Parse(line) == ParseItemPart(line, ParseInt(TargetText(line)), Trim(pieces[1]));
    ItemPartBounds(line, ParseInt(TargetText(line)), Trim(pieces[1]));
  }

  // --------------------------------------------------------- written lines

  /** The text of one token written from its groups. */
  function TokenText(m: Match): string {
    "(" + MatchText(m) + ")"
  }

  /** The texts of several tokens, in order. */
  function TokenTexts(ms: seq<Match>): (r: seq<string>)
    ensures |r| == |ms|
  {
    seq(|ms|, i requires 0 <= i < |ms| => TokenText(ms[i]))
  }

  /** A line written from a package weight part and token groups, with one space after the `:`. */
  function LineText(target: string, ms: seq<Match>): string {
    target + [':'] + ([' '] + Join(TokenTexts(ms), ' '))
  }

  /** The items the written tokens describe. */
  function ItemsOf(ms: seq<Match>): (r: seq<Item>)
    requires forall i :: 0 <= i < |ms| ==> Writable(ms[i])
    ensures |r| == |ms|
  {
    seq(|ms|, i requires 0 <= i < |ms| && Writable(ms[i]) => ItemOf(ms[i]))
  }

  /** Token groups the parser accepts, with a marker that is neither the token separator nor the `:` that ends the package weight. */
  predicate Writable(m: Match) {
    && WellFormed(m) && m.at == 1
    && m.marker != ' ' && m.marker != ':'
    && DecimalValue(m.weight) <= 100.0 && DecimalValue(m.cost) <= 100.0
  }

  /** A written number is digits and at most one `.`. */
  lemma DecimalTextShape(d: Decimal)
    requires WellFormedDecimal(d)
    ensures forall i :: 0 <= i < |DecimalText(d)| ==> IsDigit(DecimalText(d)[i]) || DecimalText(d)[i] == '.'
  {
    var t := DecimalText(d);
    forall i | 0 <= i < |t| ensures IsDigit(t[i]) || t[i] == '.' {
      if i < |d.whole| {
        assert t[i] == d.whole[i];
      } else if i > |d.whole| {
        assert t[i] == d.frac[i - |d.whole| - 1];
      }
    }
  }

  /** A written token has no `:` or space in it and starts and ends with a bracket. */
  lemma TokenTextShape(m: Match)
    requires WellFormed(m) && m.marker != ':' && m.marker != ' '
    ensures ':' !in TokenText(m) && ' ' !in TokenText(m)
    ensures TokenText(m)[0] == '(' && TokenText(m)[|TokenText(m)| - 1] == ')'
  {
    var t := TokenText(m);
    var w := DecimalText(m.weight);
    var c := DecimalText(m.cost);
    assert t == "(" + m.index + "," + w + "," + [m.marker] + c + ")";
    forall i | 0 <= i < |t| ensures t[i] != ':' && t[i] != ' ' {
      if 1 <= i < 1 + |m.index| {
        assert t[i] == m.index[i - 1];
      } else if 2 + |m.index| <= i < 2 + |m.index| + |w| {
        assert t[i] == w[i - 2 - |m.index|];
        DecimalTextShape(m.weight);
      } else if 4 + |m.index| + |w| <= i < |t| - 1 {
        assert t[i] == c[i - 4 - |m.index| - |w|];
        DecimalTextShape(m.cost);
      }
    }
  }

  /** A written token is checked into the item its groups describe. */
  lemma WrittenTokenChecks(line: string, m: Match)
    requires Writable(m)
    ensures CheckToken(line, TokenText(m)) == Ok(ItemOf(m))
  {
    ScanParenthesized(m);
    CheckTokenOrder(line, TokenText(m));
  }

  /** Written tokens are checked into their items, in order. */
  lemma WrittenTokensCheck(line: string, ms: seq<Match>)
    requires forall i :: 0 <= i < |ms| ==> Writable(ms[i])
    ensures ParseItems(line, TokenTexts(ms)) == Ok(ItemsOf(ms))
  {
    var f := token => CheckToken(line, token);
    var tokens := TokenTexts(ms);
    forall i | 0 <= i < |ms| ensures f(tokens[i]) == Ok(ItemOf(ms[i])) {
      WrittenTokenChecks(line, ms[i]);
    }
    MapOrFailOk(f, tokens);
    assert MapOrFail(f, tokens).value == ItemsOf(ms);
  }

  /** A line with exactly one `:` splits into its package weight part and its item part. */
  lemma LineParts(target: string, rest: string)
    requires ':' !in target && ':' !in rest
    ensures TargetText(target + [':'] + rest) == Trim(target)
    ensures ItemsText(target + [':'] + rest) == Some(Trim(rest))
  {
    SplitAfterPiece(target, ':', rest);
    SplitNoSeparator(rest, ':');
  }

  /** No written token holds a `:` or a space. */
  lemma TokenTextsAvoid(ms: seq<Match>)
    requires forall i :: 0 <= i < |ms| ==> Writable(ms[i])
    ensures forall i :: 0 <= i < |TokenTexts(ms)| ==> ':' !in TokenTexts(ms)[i] && ' ' !in TokenTexts(ms)[i]
  {
    var parts := TokenTexts(ms);
    forall i | 0 <= i < |parts| ensures ':' !in parts[i] && ' ' !in parts[i] {
      TokenTextShape(ms[i]);
    }
  }

  /** Written tokens joined by spaces start with `(` and end with `)`. */
  lemma JoinedTokensEnds(ms: seq<Match>)
    requires 1 <= |ms| && forall i :: 0 <= i < |ms| ==> Writable(ms[i])
    ensures var items := Join(TokenTexts(ms), ' ');
      items != [] && items[0] == '(' && items[|items| - 1] == ')'
  {
    var parts := TokenTexts(ms);
    assert parts[0] == TokenText(ms[0]);
    assert parts[|ms| - 1] == TokenText(ms[|ms| - 1]);
    TokenTextShape(ms[0]);
    TokenTextShape(ms[|ms| - 1]);
    JoinFirst(parts, ' ');
    JoinLast(parts, ' ');
  }

  /** Written tokens joined by spaces hold no `:`, lose a space put before them to `trim`, and split back into the tokens. */
  lemma JoinedTokens(ms: seq<Match>)
    requires 1 <= |ms| && forall i :: 0 <= i < |ms| ==> Writable(ms[i])
    ensures ':' !in [' '] + Join(TokenTexts(ms), ' ')
    ensures Trim([' '] + Join(TokenTexts(ms), ' ')) == Join(TokenTexts(ms), ' ')
    ensures Split(Join(TokenTexts(ms), ' '), ' ') == TokenTexts(ms)
  {
    var parts := TokenTexts(ms);
    var items := Join(parts, ' ');
    TokenTextsAvoid(ms);
    assert ':' !in items by {
      JoinAvoids(parts, ' ', ':');
    }
    assert Trim([' '] + items) == items by {
      JoinedTokensEnds(ms);
      TrimSpaceBefore(items);
    }
    SplitJoin(parts, ' ');
  }

  /**
   A line written from at most fifteen accepted tokens, whose package weight
   passes, parses back into that weight and the tokens' items in order.
   */
  lemma WrittenLineParses(target: string, ms: seq<Match>)
    requires ':' !in target
    requires var w := ParseInt(Trim(target)); w.NaN? || w.value <= WEIGHT_LIMIT
    requires 1 <= |ms| <= ITEMS_LIMIT && forall i :: 0 <= i < |ms| ==> Writable(ms[i])
    ensures Parse(LineText(target, ms)) == Ok(Package(ParseInt(Trim(target)), ItemsOf(ms)))
  {
    var line := LineText(target, ms);
    JoinedTokens(ms);
    LineParts(target, [' '] + Join(TokenTexts(ms), ' '));
    assert Parse(line) == ParseItemPart(line, ParseInt(Trim(target)), Join(TokenTexts(ms), ' '));
    WrittenTokensCheck(line, ms);
  }
}

=== FILE: selector.dfy ===
/**
 `Packer.calculate`: the deterministic greedy selection. Items that do not
 weigh strictly less than the package weight are dropped; the rest are
 stably sorted by cost, most expensive first; every item seeds one greedy
 combination; combinations are grouped by total cost, the lighter one kept
 on a cost tie; the most expensive group wins and its indices are printed
 lightest first. With no item left the answer is `-`.
 */
module Selector {
  import opened Wrappers
  import opened Text
  import opened Types
  import opened Utils
  import opened Sorting

  /** An item fits when it weighs strictly less than the package; nothing fits a NaN package weight. */
  predicate Fits(x: Item, totalWeight: JsInt) {
    totalWeight.Int? && x.weight < totalWeight.value as real
  }

  /** The items that fit, in their original order. */
  function FilterFitting(items: seq<Item>, totalWeight: JsInt): seq<Item>
  {
    if items == [] then []
    else (if Fits(items[0], totalWeight) then [items[0]] else []) + FilterFitting(items[1..], totalWeight)
  }

  /** The filter keeps exactly the items that fit. */
  lemma {:induction false} FilterFittingMembers(items: seq<Item>, totalWeight: JsInt)
    ensures forall x :: x in FilterFitting(items, totalWeight) <==> x in items && Fits(x, totalWeight)
  {
    if items != [] {
      FilterFittingMembers(items[1..], totalWeight);
      assert forall x :: x in items <==> x == items[0] || x in items[1..] by {
        assert items == [items[0]] + items[1..];
      }
    }
  }

  /** The filter keeps a single item exactly when it fits, and of nothing keeps nothing. */
  lemma FilterFittingOne(x: Item, totalWeight: JsInt)
    ensures FilterFitting([], totalWeight) == []
    ensures FilterFitting([x], totalWeight) == if Fits(x, totalWeight) then [x] else []
  {
    assert [x][1..] == [];
  }

  /** The filter keeps the order of its input: it filters a concatenation piece by piece. */
  lemma {:induction false} FilterFittingConcat(xs: seq<Item>, ys: seq<Item>, totalWeight: JsInt)
    ensures FilterFitting(xs + ys, totalWeight) == FilterFitting(xs, totalWeight) + FilterFitting(ys, totalWeight)
  {
    if xs == [] {
      assert xs + ys == ys;
    } else {
      var head := if Fits(xs[0], totalWeight) then [xs[0]] else [];
      FilterFittingConcat(xs[1..], ys, totalWeight);
      assert (xs + ys)[0] == xs[0];
      assert (xs + ys)[1..] == xs[1..] + ys;
      calc {
        FilterFitting(xs + ys, totalWeight);
        head + FilterFitting(xs[1..] + ys, totalWeight);
        head + (FilterFitting(xs[1..], totalWeight) + FilterFitting(ys, totalWeight));
        (head + FilterFitting(xs[1..], totalWeight)) + FilterFitting(ys, totalWeight);
        FilterFitting(xs, totalWeight) + FilterFitting(ys, totalWeight);
      }
    }
  }

  /** The fitting items in the order the search visits them: by cost, most expensive first, ties in line order. */
  function Candidates(p: Package): seq<Item>
  {
    StableSort(ByCostDescending, FilterFitting(p.items, p.totalWeight))
  }

  /** The candidates are exactly the items that fit. */
  lemma CandidatesMembers(p: Package)
    ensures forall x :: x in Candidates(p) <==> x in p.items && Fits(x, p.totalWeight)
  {
    var fitting := FilterFitting(p.items, p.totalWeight);
    FilterFittingMembers(p.items, p.totalWeight);
    StableSortIsStable(ByCostDescending, fitting);
    assert forall x :: x in Candidates(p) <==> x in multiset(fitting);
  }

  /**
   The candidates are sorted by cost, most expensive first, and the
   candidates of each cost are the fitting items of that cost in line order.
   */
  lemma CandidatesOrder(p: Package)
    ensures IsSorted(ByCostDescending, Candidates(p))
    ensures forall k :: WithKey(ByCostDescending, Candidates(p), k) == WithKey(ByCostDescending, FilterFitting(p.items, p.totalWeight), k)
  {
    StableSortIsStable(ByCostDescending, FilterFitting(p.items, p.totalWeight));
  }

  /** A combination under construction: its items and the running totals `tWeight` and `tCost`. */
  datatype Combo = Combo(items: seq<Item>, tWeight: real, tCost: real)

  /** The running totals are the totals of the items. */
  predicate Tracked(c: Combo) {
    c.tWeight == WeightSum(c.items) && c.tCost == CostSum(c.items)
  }

  /**
   One pass of the inner loop: skip an item with the seed's index, skip an
   item that would take the weight over the limit, add any other item.
   */
  function Step(seed: Item, limit: int, acc: Combo, x: Item): (r: Combo)
    requires Tracked(acc) && acc.tWeight <= limit as real
    ensures Tracked(r) && r.tWeight <= limit as real
    ensures r.items == acc.items || (r.items == acc.items + [x] && x.index != seed.index)
    ensures x.index != seed.index && acc.tWeight + x.weight <= limit as real ==> r.items == acc.items + [x]
    ensures x.index == seed.index || acc.tWeight + x.weight > limit as real ==> r == acc
  {
    if seed.index == x.index then acc
    else if acc.tWeight + x.weight > limit as real then acc
    else
      WeightSumAppend(acc.items, x);
      Combo(acc.items + [x], acc.tWeight + x.weight, acc.tCost + x.cost)
  }

  /** The inner loop over the candidates, in order. */
  function Grow(seed: Item, candidates: seq<Item>, limit: int, acc: Combo): (r: Combo)
    requires Tracked(acc) && acc.tWeight <= limit as real
    ensures Tracked(r) && r.tWeight <= limit as real
    ensures |acc.items| <= |r.items| && forall k :: 0 <= k < |acc.items| ==> r.items[k] == acc.items[k]
    decreases |candidates|
  {
    if candidates == [] then acc
    else Grow(seed, candidates[1..], limit, Step(seed, limit, acc, candidates[0]))
  }

  /** What the inner loop adds are candidates that do not share the seed's index. */
  lemma {:induction false} GrowAddsCandidates(seed: Item, candidates: seq<Item>, limit: int, acc: Combo)
    requires Tracked(acc) && acc.tWeight <= limit as real
    ensures forall k :: |acc.items| <= k < |Grow(seed, candidates, limit, acc).items| ==>
      Grow(seed, candidates, limit, acc).items[k] in candidates && Grow(seed, candidates, limit, acc).items[k].index != seed.index
    decreases |candidates|
  {
    if candidates != [] {
      var next := Step(seed, limit, acc, candidates[0]);
      GrowAddsCandidates(seed, candidates[1..], limit, next);
      var r := Grow(seed, candidates[1..], limit, next);
      forall k | |acc.items| <= k < |r.items| ensures r.items[k] in candidates && r.items[k].index != seed.index {
        if k < |next.items| {
          assert r.items[k] == next.items[k] == candidates[0];
        } else {
          InTail(candidates, r.items[k]);
        }
      }
    }
  }

  /** The inner loop over two runs of candidates is the loop over the second, started where the first ended. */
  lemma {:induction false} GrowConcat(seed: Item, xs: seq<Item>, ys: seq<Item>, limit: int, acc: Combo)
    requires Tracked(acc) && acc.tWeight <= limit as real
    ensures Grow(seed, xs + ys, limit, acc) == Grow(seed, ys, limit, Grow(seed, xs, limit, acc))
    decreases |xs|
  {
    if xs == [] {
      assert xs + ys == ys;
    } else {
      assert (xs + ys)[0] == xs[0];
      assert (xs + ys)[1..] == xs[1..] + ys;
      GrowConcat(seed, xs[1..], ys, limit, Step(seed, limit, acc, xs[0]));
    }
  }

  /** The combination the inner loop ends with begins with the one it started from. */
  lemma GrowKeepsPrefix(seed: Item, candidates: seq<Item>, limit: int, acc: Combo)
    requires Tracked(acc) && acc.tWeight <= limit as real
    ensures var r := Grow(seed, candidates, limit, acc);
      |acc.items| <= |r.items| && r.items[..|acc.items|] == acc.items
  {
  }

  /**
   The inner loop is greedy: a candidate `c` met after the candidates `pre`
   is taken exactly when its index is not the seed's and it fits beside what
   `pre` left in the combination; the loop then goes on from there, and
   what is taken stays in the combination the seed ends with.
   */
  lemma SeedCombinationIsGreedy(seed: Item, pre: seq<Item>, c: Item, post: seq<Item>, limit: int)
    requires seed.weight < limit as real
    ensures var before := Grow(seed, pre, limit, Start(seed));
      var after := Step(seed, limit, before, c);
      var r := SeedCombination(seed, pre + [c] + post, limit);
      && (c.index != seed.index && before.tWeight + c.weight <= limit as real ==> after.items == before.items + [c])
      && (c.index == seed.index || before.tWeight + c.weight > limit as real ==> after.items == before.items)
      && r == Grow(seed, post, limit, after)
      && |after.items| <= |r.items| && r.items[..|after.items|] == after.items
  {
    var before := Grow(seed, pre, limit, Start(seed));
    var rest := [c] + post;
    GrowConcat(seed, pre, rest, limit, Start(seed));
    assert pre + [c] + post == pre + rest;
    assert rest[0] == c && rest[1..] == post;
    GrowKeepsPrefix(seed, post, limit, Step(seed, limit, before, c));
  }

  lemma InTail(xs: seq<Item>, x: Item)
    requires xs != [] && x in xs[1..]
    ensures x in xs
  {
    var i :| 0 <= i < |xs| - 1 && xs[1..][i] == x;
    assert xs[i + 1] == x;
  }

  /** The combination the outer loop starts from a seed: the seed alone. */
  function Start(seed: Item): (r: Combo)
    ensures Tracked(r)
  {
    WeightSumAppend([], seed);
    assert [] + [seed] == [seed];
    Combo([seed], seed.weight, seed.cost)
  }

  /** The combination seeded by `seed`: the seed, then what the inner loop adds. */
  function SeedCombination(seed: Item, candidates: seq<Item>, limit: int): (r: Combo)
    requires seed.weight < limit as real
    ensures Tracked(r) && r.tWeight <= limit as real
    ensures |r.items| >= 1 && r.items[0] == seed
  {
    Grow(seed, candidates, limit, Start(seed))
  }

  /**
   A seeded combination starts with the seed, holds no other item with the
   seed's index, takes the rest from the candidates, and stays within the
   package weight.
   */
  lemma SeedCombinationShape(seed: Item, candidates: seq<Item>, limit: int)
    requires seed.weight < limit as real
    ensures var r := SeedCombination(seed, candidates, limit);
      forall k :: 1 <= k < |r.items| ==> r.items[k] in candidates && r.items[k].index != seed.index
  {
    assert SeedCombination(seed, candidates, limit) == Grow(seed, candidates, limit, Start(seed));
    assert |Start(seed).items| == 1;
    GrowAddsCandidates(seed, candidates, limit, Start(seed));
  }

  /** One combination per candidate, in candidate order. */
  function Combinations(candidates: seq<Item>, limit: int): (cs: seq<Combo>)
    requires forall x :: x in candidates ==> x.weight < limit as real
    ensures |cs| == |candidates|
    ensures forall k :: 0 <= k < |cs| ==> |cs[k].items| >= 1 && cs[k].items[0] == candidates[k]
    ensures forall k :: 0 <= k < |cs| ==> Tracked(cs[k]) && cs[k].tWeight <= limit as real
  {
    seq(|candidates|, k requires 0 <= k < |candidates| => SeedCombination(candidates[k], candidates, limit))
  }

  /** The `combinations` map: total cost to the combination kept for that cost. */
  type CostMap = map<real, seq<Item>>

  /** One update of the map: a new cost is stored; a known cost is replaced only by a strictly lighter combination. */
  function Record(m: CostMap, c: Combo): CostMap {
    if c.tCost in m then
      if WeightSum(m[c.tCost]) > WeightSum(c.items) then m[c.tCost := c.items] else m
    else m[c.tCost := c.items]
  }

  /** The map after the outer loop has recorded the combinations in order. */
  function Group(cs: seq<Combo>): CostMap {
    if cs == [] then map[] else Record(Group(cs[..|cs| - 1]), cs[|cs| - 1])
  }

  /** The largest total cost among the combinations, the key the answer is read from. */
  function MaxCost(cs: seq<Combo>): (r: real)
    requires |cs| > 0
    ensures forall i :: 0 <= i < |cs| ==> cs[i].tCost <= r
    ensures exists i :: 0 <= i < |cs| && cs[i].tCost == r
  {
    if |cs| == 1 then cs[0].tCost
    else
      var init := cs[..|cs| - 1];
      var m := MaxCost(init);
      assert forall i :: 0 <= i < |init| ==> cs[i] == init[i];
      if cs[|cs| - 1].tCost > m then cs[|cs| - 1].tCost else m
  }

  /**
   Combination `j` is the one a cost-keyed, lighter-wins map keeps for `key`:
   it has that cost, no combination with that cost is lighter, and every
   earlier one with that cost is strictly heavier.
   */
  ghost predicate IsWinner(cs: seq<Combo>, key: real, j: int) {
    && 0 <= j < |cs| && cs[j].tCost == key
    && (forall i :: 0 <= i < |cs| && cs[i].tCost == key ==> WeightSum(cs[j].items) <= WeightSum(cs[i].items))
    && (forall i :: 0 <= i < j && cs[i].tCost == key ==> WeightSum(cs[j].items) < WeightSum(cs[i].items))
  }

  /** A cost has at most one winner. */
  lemma WinnerIsUnique(cs: seq<Combo>, key: real, j1: int, j2: int)
    requires IsWinner(cs, key, j1) && IsWinner(cs, key, j2)
    ensures j1 == j2
  {
  }

  /** Appending one combination to the recorded ones adds its cost to the keys. */
  lemma {:induction false} GroupKeys(cs: seq<Combo>)
    ensures forall key :: key in Group(cs) <==> exists i :: 0 <= i < |cs| && cs[i].tCost == key
  {
    if cs != [] {
      var init := cs[..|cs| - 1];
      var c := cs[|cs| - 1];
      GroupKeys(init);
      forall key ensures key in Group(cs) <==> exists i :: 0 <= i < |cs| && cs[i].tCost == key {
        if key in Group(init) {
          var i :| 0 <= i < |init| && init[i].tCost == key;
          assert cs[i].tCost == key;
        }
        if key != c.tCost && exists i :: 0 <= i < |cs| && cs[i].tCost == key {
          var i :| 0 <= i < |cs| && cs[i].tCost == key;
          assert i < |init| && init[i].tCost == key;
        }
      }
    }
  }

  /** Winners of the recorded prefix stay winners unless the new combination has their cost. */
  lemma WinnerOtherKey(cs: seq<Combo>, key: real, j: int)
    requires |cs| > 0 && cs[|cs| - 1].tCost != key
    requires IsWinner(cs[..|cs| - 1], key, j)
    ensures IsWinner(cs, key, j)
  {
    var init := cs[..|cs| - 1];
    assert forall i :: 0 <= i < |init| ==> cs[i] == init[i];
  }

  /** The first combination with a cost is its winner when it is not beaten. */
  lemma WinnerNewKey(cs: seq<Combo>)
    requires |cs| > 0
    requires forall i :: 0 <= i < |cs| - 1 ==> cs[i].tCost != cs[|cs| - 1].tCost
    ensures IsWinner(cs, cs[|cs| - 1].tCost, |cs| - 1)
  {
  }

  /** A strictly lighter combination replaces the winner of its cost. */
  lemma WinnerReplaced(cs: seq<Combo>, j: int)
    requires |cs| > 0
    requires IsWinner(cs[..|cs| - 1], cs[|cs| - 1].tCost, j)
    requires WeightSum(cs[j].items) > WeightSum(cs[|cs| - 1].items)
    ensures IsWinner(cs, cs[|cs| - 1].tCost, |cs| - 1)
  {
    var init := cs[..|cs| - 1];
    assert forall i :: 0 <= i < |init| ==> cs[i] == init[i];
  }

  /** A combination no lighter than the winner of its cost leaves the winner in place. */
  lemma WinnerKept(cs: seq<Combo>, j: int)
    requires |cs| > 0
    requires IsWinner(cs[..|cs| - 1], cs[|cs| - 1].tCost, j)
    requires WeightSum(cs[j].items) <= WeightSum(cs[|cs| - 1].items)
    ensures IsWinner(cs, cs[|cs| - 1].tCost, j)
  {
    var init := cs[..|cs| - 1];
    assert forall i :: 0 <= i < |init| ==> cs[i] == init[i];
  }

  /** The map keeps, for every total cost, the winning combination. */
  lemma {:induction false} GroupKeepsWinners(cs: seq<Combo>)
    ensures forall key :: key in Group(cs) <==> exists i :: 0 <= i < |cs| && cs[i].tCost == key
    ensures forall key :: key in Group(cs) ==> exists j :: IsWinner(cs, key, j) && Group(cs)[key] == cs[j].items
  {
    GroupKeys(cs);
    if cs != [] {
      GroupKeepsWinners(cs[..|cs| - 1]);
      forall key | key in Group(cs) ensures exists j :: IsWinner(cs, key, j) && Group(cs)[key] == cs[j].items {
        GroupWinnerStep(cs, key);
      }
    }
  }

  /** Every key of the grouping holds the combination of a winner for that key. */
  ghost predicate WinnersKept(cs: seq<Combo>) {
    forall key :: key in Group(cs) ==> exists j :: IsWinner(cs, key, j) && Group(cs)[key] == cs[j].items
  }

  /** The inductive step of `GroupKeepsWinners`, for one key. */
  lemma GroupWinnerStep(cs: seq<Combo>, key: real)
    requires cs != [] && key in Group(cs)
    requires WinnersKept(cs[..|cs| - 1])
    ensures exists j :: IsWinner(cs, key, j) && Group(cs)[key] == cs[j].items
  {
    var init := cs[..|cs| - 1];
    var c := cs[|cs| - 1];
    var m := Group(init);
    if key != c.tCost {
      var j :| IsWinner(init, key, j) && m[key] == init[j].items;
      WinnerOtherKey(cs, key, j);
      assert cs[j] == init[j];
    } else if key !in m {
      GroupKeys(init);
      forall i | 0 <= i < |cs| - 1 ensures cs[i].tCost != key {
        assert cs[i] == init[i];
      }
      WinnerNewKey(cs);
    } else {
      var j :| IsWinner(init, key, j) && m[key] == init[j].items;
      assert cs[j] == init[j];
      if WeightSum(m[key]) > WeightSum(c.items) {
        WinnerReplaced(cs, j);
      } else {
        WinnerKept(cs, j);
      }
    }
  }

  /** The combinations of a package's candidates, one per seed in search order. */
  function SeedCombinations(p: Package): (cs: seq<Combo>)
    ensures |cs| == |Candidates(p)|
  {
    var candidates := Candidates(p);
    if |candidates| == 0 then []
    else
      CandidatesMembers(p);
      assert candidates[0] in candidates;
      Combinations(candidates, p.totalWeight.value)
  }

  /** The combination kept under the largest total cost, or `None` when there is no combination. */
  function Best(cs: seq<Combo>): Option<seq<Item>>
  {
    if |cs| == 0 then None
    else
      GroupKeepsWinners(cs);
      Some(Group(cs)[MaxCost(cs)])
  }

  /** The combination `calculate` reports, or `None` when nothing fits. */
  function Chosen(p: Package): Option<seq<Item>> {
    Best(SeedCombinations(p))
  }

  /** The indices of `xs` joined by commas. */
  function IndexList(xs: seq<Item>): string {
    Join(seq(|xs|, i requires 0 <= i < |xs| => NatToString(xs[i].index)), ',')
  }

  /** `Packer.calculate`. */
  function Calculate(p: Package): string {
    match Chosen(p)
    case None => "-"
    case Some(items) => IndexList(StableSort(ByWeightAscending, items))
  }

  // ---------------------------------------------------------------- properties

  /** The answer read back: split at commas and read each piece with `parseInt`. */
  function ReadIndices(s: string): seq<JsInt> {
    var parts := Split(s, ',');
    seq(|parts|, i requires 0 <= i < |parts| => ParseInt(parts[i]))
  }

  /** A non-empty index list starts with a digit, so it is never `-`. */
  lemma IndexListStartsWithDigit(xs: seq<Item>)
    requires |xs| > 0
    ensures |IndexList(xs)| > 0 && IsDigit(IndexList(xs)[0])
  {
    var parts := seq(|xs|, i requires 0 <= i < |xs| => NatToString(xs[i].index));
    assert parts[0] == NatToString(xs[0].index);
    if |parts| > 1 {
      assert Join(parts, ',') == parts[0] + [','] + Join(parts[1..], ',');
    }
  }

  /** Splitting the index list at commas and parsing every piece gives back the indices, in order. */
  lemma IndexListReadsBack(xs: seq<Item>)
    requires |xs| > 0
    ensures ReadIndices(IndexList(xs)) == seq(|xs|, i requires 0 <= i < |xs| => Int(xs[i].index))
  {
    var parts := seq(|xs|, i requires 0 <= i < |xs| => NatToString(xs[i].index));
    assert Split(IndexList(xs), ',') == parts by {
      forall i | 0 <= i < |parts| ensures ',' !in parts[i] {
        assert AllDigits(parts[i]);
      }
      SplitJoin(parts, ',');
    }
    var r := ReadIndices(IndexList(xs));
    forall i | 0 <= i < |xs| ensures r[i] == Int(xs[i].index) {
      ParseIntNatToString(xs[i].index);
    }
  }

  /** Combination `j` has the largest total cost and wins the tie-break among combinations of that cost. */
  ghost predicate IsBest(cs: seq<Combo>, j: int) {
    && 0 <= j < |cs|
    && (forall i :: 0 <= i < |cs| ==> cs[i].tCost <= cs[j].tCost)
    && IsWinner(cs, cs[j].tCost, j)
  }

  /** `Best` picks the best combination, and finds one whenever there is a combination at all. */
  lemma BestIsBest(cs: seq<Combo>)
    ensures Best(cs).None? <==> |cs| == 0
    ensures Best(cs).Some? ==> exists j :: IsBest(cs, j) && Best(cs).value == cs[j].items
  {
    if |cs| > 0 {
      GroupKeepsWinners(cs);
      var key := MaxCost(cs);
      var j :| IsWinner(cs, key, j) && Group(cs)[key] == cs[j].items;
      assert IsBest(cs, j);
    }
  }

  /** There is no candidate exactly when no item fits. */
  lemma NoCandidates(p: Package)
    ensures |Candidates(p)| == 0 <==> forall x :: x in p.items ==> !Fits(x, p.totalWeight)
  {
    CandidatesMembers(p);
    if |Candidates(p)| > 0 {
      assert Candidates(p)[0] in Candidates(p);
    }
  }

  /**
   The reported combination is the one of largest total cost; among equal
   costs it is the lightest, and among equal weights the one whose seed comes
   first in search order. Nothing is reported exactly when nothing fits.
   */
  lemma ChosenIsBest(p: Package)
    ensures Chosen(p).None? <==> forall x :: x in p.items ==> !Fits(x, p.totalWeight)
    ensures Chosen(p).Some? ==> exists j :: IsBest(SeedCombinations(p), j) && Chosen(p).value == SeedCombinations(p)[j].items
  {
    BestIsBest(SeedCombinations(p));
    NoCandidates(p);
  }

  /** Every seed combination of a package is a real packing of that package. */
  lemma SeedCombinationIsFeasible(p: Package, j: int)
    requires 0 <= j < |SeedCombinations(p)|
    ensures p.totalWeight.Int?
    ensures |SeedCombinations(p)[j].items| >= 1
    ensures WeightSum(SeedCombinations(p)[j].items) <= p.totalWeight.value as real
    ensures forall x :: x in SeedCombinations(p)[j].items ==> x in p.items && Fits(x, p.totalWeight)
    ensures forall k :: 1 <= k < |SeedCombinations(p)[j].items| ==>
      SeedCombinations(p)[j].items[k].index != SeedCombinations(p)[j].items[0].index
  {
    SeedCombinationsAt(p, j);
    var candidates := Candidates(p);
    SeedCombinationShape(candidates[j], candidates, p.totalWeight.value);
    SeedItemsAreCandidates(candidates[j], candidates, p.totalWeight.value);
    CandidatesMembers(p);
  }

  /** The `j`-th combination is the one seeded by the `j`-th candidate, under the package weight. */
  lemma SeedCombinationsAt(p: Package, j: int)
    requires 0 <= j < |SeedCombinations(p)|
    ensures p.totalWeight.Int? && j < |Candidates(p)|
    ensures Candidates(p)[j].weight < p.totalWeight.value as real && Candidates(p)[j] in Candidates(p)
    ensures SeedCombinations(p)[j] == SeedCombination(Candidates(p)[j], Candidates(p), p.totalWeight.value)
  {
    CandidatesMembers(p);
    assert Candidates(p)[j] in Candidates(p);
  }

  /** Every item of a seeded combination is a candidate. */
  lemma SeedItemsAreCandidates(seed: Item, candidates: seq<Item>, limit: int)
    requires seed.weight < limit as real && seed in candidates
    ensures forall x :: x in SeedCombination(seed, candidates, limit).items ==> x in candidates
  {
    var c := SeedCombination(seed, candidates, limit);
    SeedCombinationShape(seed, candidates, limit);
    forall x | x in c.items ensures x in candidates {
      var k :| 0 <= k < |c.items| && c.items[k] == x;
    }
  }

  /** At most one combination is best. */
  lemma BestIsUnique(cs: seq<Combo>, j1: int, j2: int)
    requires IsBest(cs, j1) && IsBest(cs, j2)
    ensures j1 == j2
  {
    assert cs[j1].tCost == cs[j2].tCost;
    WinnerIsUnique(cs, cs[j1].tCost, j1, j2);
  }

  /**
   The reported combination is a real packing: its first item is its seed,
   no later item shares the seed's index, every item comes from the package
   and fits on its own, and the total weight stays within the package weight.
   */
  lemma ChosenIsFeasible(p: Package)
    requires Chosen(p).Some?
    ensures p.totalWeight.Int?
    ensures |Chosen(p).value| >= 1
    ensures WeightSum(Chosen(p).value) <= p.totalWeight.value as real
    ensures forall x :: x in Chosen(p).value ==> x in p.items && Fits(x, p.totalWeight)
    ensures forall k :: 1 <= k < |Chosen(p).value| ==> Chosen(p).value[k].index != Chosen(p).value[0].index
  {
    ChosenIsBest(p);
    var j :| IsBest(SeedCombinations(p), j) && Chosen(p).value == SeedCombinations(p)[j].items;
    SeedCombinationIsFeasible(p, j);
  }

  /** The answer is `-` exactly when no item weighs strictly less than the package weight. */
  lemma CalculateDash(p: Package)
    ensures Calculate(p) == "-" <==> forall x :: x in p.items ==> !Fits(x, p.totalWeight)
  {
    ChosenIsBest(p);
    if Chosen(p).Some? {
      ChosenIsFeasible(p);
      var sorted := StableSort(ByWeightAscending, Chosen(p).value);
      StableSortIsStable(ByWeightAscending, Chosen(p).value);
      assert Chosen(p).value[0] in multiset(sorted);
      IndexListStartsWithDigit(sorted);
    }
  }

  /**
   The answer is the indices of the reported combination, printed in decimal
   and joined by commas, in the order of any stable ascending sort by weight;
   read back by splitting at commas, it gives those indices.
   */
  lemma CalculatePrintsSortedIndices(p: Package, r: seq<Item>)
    requires Chosen(p).Some?
    requires IsSorted(ByWeightAscending, r)
    requires forall k :: WithKey(ByWeightAscending, r, k) == WithKey(ByWeightAscending, Chosen(p).value, k)
    ensures Calculate(p) == Join(seq(|r|, i requires 0 <= i < |r| => NatToString(r[i].index)), ',')
    ensures ReadIndices(Calculate(p)) == seq(|r|, i requires 0 <= i < |r| => Int(r[i].index))
  {
    var sorted := StableSort(ByWeightAscending, Chosen(p).value);
    StableSortIsStable(ByWeightAscending, Chosen(p).value);
    SortedStableIsUnique(ByWeightAscending, sorted, r);
    ChosenIsFeasible(p);
    assert Chosen(p).value[0] in multiset(sorted);
    IndexListReadsBack(sorted);
  }
}

=== FILE: sorting.dfy ===
/**
 `Array.prototype.sort` with the packer's two comparators. The sort is stable,
 and both comparators are consistent (each is induced by a numeric key), so the
 result is fully determined: the sequence ordered by key in which items with
 equal keys keep their input order. Insertion sort computes exactly that.
 */
module Sorting {
  import opened Types
  import opened Utils

  /** The two orders the packer sorts by. */
  datatype Order = ByCostDescending | ByWeightAscending

  /** The comparator passed to `sort` for each order. */
  function Compare(o: Order, a: Item, b: Item): int
  {
    match o
    case ByCostDescending => SortReverseByCost(a, b)
    case ByWeightAscending => SortByWeight(a, b)
  }

  /** The numeric key each comparator orders by, ascending. */
  function Key(o: Order, x: Item): real
  {
    match o
    case ByCostDescending => -x.cost
    case ByWeightAscending => x.weight
  }

  /** Each comparator answers by the sign of the key difference. */
  lemma CompareIsKeyOrder(o: Order, a: Item, b: Item)
    ensures Compare(o, a, b) < 0 <==> Key(o, a) < Key(o, b)
    ensures Compare(o, a, b) == 0 <==> Key(o, a) == Key(o, b)
    ensures Compare(o, a, b) > 0 <==> Key(o, a) > Key(o, b)
  {
  }

  ghost predicate IsSorted(o: Order, s: seq<Item>) {
    forall i, j :: 0 <= i < j < |s| ==> Key(o, s[i]) <= Key(o, s[j])
  }

  /** The items of `s` whose key is `k`, in their order in `s`. */
  function WithKey(o: Order, s: seq<Item>, k: real): seq<Item>
  {
    if s == [] then []
    else (if Key(o, s[0]) == k then [s[0]] else []) + WithKey(o, s[1..], k)
  }

  /**
   Inserts `x` in front of the first element that does not compare below it;
   `x` thus precedes every element with the same key.
   */
  function Insert(o: Order, x: Item, t: seq<Item>): seq<Item>
  {
    if t == [] then [x]
    else if Compare(o, x, t[0]) <= 0 then [x] + t
    else [t[0]] + Insert(o, x, t[1..])
  }

  /** Inserting adds `x` and loses nothing. */
  lemma {:induction false} InsertPermutes(o: Order, x: Item, t: seq<Item>)
    ensures multiset(Insert(o, x, t)) == multiset(t) + multiset{x}
  {
    if t != [] && Compare(o, x, t[0]) > 0 {
      InsertPermutes(o, x, t[1..]);
      assert t == [t[0]] + t[1..];
    }
  }

  lemma InsertMembers(o: Order, x: Item, t: seq<Item>, y: Item)
    ensures y in Insert(o, x, t) <==> y == x || y in t
  {
    InsertPermutes(o, x, t);
    assert y in Insert(o, x, t) <==> y in multiset(Insert(o, x, t));
  }

  /** A sorted sequence stays sorted behind an element whose key is no greater than any of its own. */
  lemma SortedCons(o: Order, x: Item, t: seq<Item>)
    requires IsSorted(o, t)
    requires forall y :: y in t ==> Key(o, x) <= Key(o, y)
    ensures IsSorted(o, [x] + t)
  {
    var r := [x] + t;
    forall i, j | 0 <= i < j < |r| ensures Key(o, r[i]) <= Key(o, r[j]) {
      assert r[j] == t[j - 1];
      if i > 0 { assert r[i] == t[i - 1]; }
    }
  }

  lemma SortedTail(o: Order, t: seq<Item>)
    requires IsSorted(o, t) && t != []
    ensures IsSorted(o, t[1..])
  {
  }

  /** Inserting into a sorted sequence keeps it sorted. */
  lemma {:induction false} InsertSorted(o: Order, x: Item, t: seq<Item>)
    requires IsSorted(o, t)
    ensures IsSorted(o, Insert(o, x, t))
  {
    if t != [] {
      CompareIsKeyOrder(o, x, t[0]);
      if Compare(o, x, t[0]) <= 0 {
        forall y | y in t ensures Key(o, x) <= Key(o, y) {
          HeadHasLeastKey(o, t, y);
        }
        SortedCons(o, x, t);
      } else {
        var rest := Insert(o, x, t[1..]);
        SortedTail(o, t);
        InsertSorted(o, x, t[1..]);
        forall y | y in rest ensures Key(o, t[0]) <= Key(o, y) {
          InsertMembers(o, x, t[1..], y);
          if y != x {
            HeadHasLeastKey(o, t, y);
          }
        }
        SortedCons(o, t[0], rest);
      }
    }
  }

  /** The key groups of a sequence with one more element in front. */
  lemma WithKeyCons(o: Order, x: Item, s: seq<Item>, k: real)
    ensures WithKey(o, [x] + s, k) == (if Key(o, x) == k then [x] else []) + WithKey(o, s, k)
  {
    assert ([x] + s)[1..] == s;
  }

  /** `x` enters its key group first, and every other key group is untouched. */
  lemma {:induction false} InsertWithKey(o: Order, x: Item, t: seq<Item>, k: real)
    ensures WithKey(o, Insert(o, x, t), k) == (if Key(o, x) == k then [x] else []) + WithKey(o, t, k)
  {
    if t == [] {
      WithKeyCons(o, x, t, k);
      assert [x] + t == [x];
    } else if Compare(o, x, t[0]) <= 0 {
      WithKeyCons(o, x, t, k);
    } else {
      var rest := Insert(o, x, t[1..]);
      assert Insert(o, x, t) == [t[0]] + rest;
      CompareIsKeyOrder(o, x, t[0]);
      InsertWithKey(o, x, t[1..], k);
      InsertWithKeyBehind(o, x, t[0], rest, t[1..], k);
      assert [t[0]] + t[1..] == t;
    }
  }

  /** The inductive step of `InsertWithKey`, when `x` goes behind the head `h`. */
  lemma InsertWithKeyBehind(o: Order, x: Item, h: Item, rest: seq<Item>, tail: seq<Item>, k: real)
    requires Key(o, h) < Key(o, x)
    requires WithKey(o, rest, k) == (if Key(o, x) == k then [x] else []) + WithKey(o, tail, k)
    ensures WithKey(o, [h] + rest, k) == (if Key(o, x) == k then [x] else []) + WithKey(o, [h] + tail, k)
  {
    WithKeyCons(o, h, rest, k);
    WithKeyCons(o, h, tail, k);
    if Key(o, x) == k {
      assert WithKey(o, [h] + rest, k) == WithKey(o, rest, k);
      assert WithKey(o, [h] + tail, k) == WithKey(o, tail, k);
    } else {
      assert WithKey(o, rest, k) == WithKey(o, tail, k);
    }
  }

  /** The packer's `sort`, as insertion sort: each element is inserted into the sorted rest. */
  function StableSort(o: Order, s: seq<Item>): seq<Item>
  {
    if s == [] then [] else Insert(o, s[0], StableSort(o, s[1..]))
  }

  /**
   The sort is a stable sort: its result is ordered by the key, is a
   permutation of the input, and keeps the input order among equal keys.
   */
  lemma {:induction false} StableSortIsStable(o: Order, s: seq<Item>)
    ensures multiset(StableSort(o, s)) == multiset(s)
    ensures IsSorted(o, StableSort(o, s))
    ensures forall k :: WithKey(o, StableSort(o, s), k) == WithKey(o, s, k)
  {
    if s != [] {
      assert s == [s[0]] + s[1..];
      var rest := StableSort(o, s[1..]);
      StableSortIsStable(o, s[1..]);
      InsertPermutes(o, s[0], rest);
      InsertSorted(o, s[0], rest);
      forall k ensures WithKey(o, Insert(o, s[0], rest), k) == WithKey(o, s, k) {
        InsertWithKey(o, s[0], rest, k);
      }
    }
  }

  lemma {:induction false} WithKeyMembers(o: Order, s: seq<Item>, k: real, y: Item)
    ensures y in WithKey(o, s, k) <==> y in s && Key(o, y) == k
  {
    if s != [] {
      WithKeyMembers(o, s[1..], k, y);
      assert y in s <==> y == s[0] || y in s[1..] by { assert s == [s[0]] + s[1..]; }
    }
  }

  /** The head of a sequence opens the group of its own key. */
  lemma WithKeyOfHead(o: Order, s: seq<Item>)
    requires s != []
    ensures WithKey(o, s, Key(o, s[0])) != [] && WithKey(o, s, Key(o, s[0]))[0] == s[0]
  {
  }

  /** In a sorted sequence the head has the least key. */
  lemma HeadHasLeastKey(o: Order, s: seq<Item>, y: Item)
    requires IsSorted(o, s) && s != [] && y in s
    ensures Key(o, s[0]) <= Key(o, y)
  {
    var i :| 0 <= i < |s| && s[i] == y;
    if i > 0 { assert Key(o, s[0]) <= Key(o, s[i]); }
  }

  /** Sorted sequences with the same key groups start with the same key. */
  lemma SameLeastKey(o: Order, a: seq<Item>, b: seq<Item>)
    requires IsSorted(o, a) && IsSorted(o, b) && a != [] && b != []
    requires forall k :: WithKey(o, a, k) == WithKey(o, b, k)
    ensures Key(o, a[0]) == Key(o, b[0])
  {
    var ka := Key(o, a[0]);
    var kb := Key(o, b[0]);
    WithKeyMembers(o, a, kb, b[0]);
    WithKeyMembers(o, b, kb, b[0]);
    WithKeyMembers(o, b, ka, a[0]);
    WithKeyMembers(o, a, ka, a[0]);
    assert WithKey(o, a, kb) == WithKey(o, b, kb);
    assert WithKey(o, a, ka) == WithKey(o, b, ka);
    HeadHasLeastKey(o, a, b[0]);
    HeadHasLeastKey(o, b, a[0]);
  }

  /** Dropping equal heads leaves tails with the same key groups. */
  lemma TailsKeepKeyGroups(o: Order, a: seq<Item>, b: seq<Item>)
    requires a != [] && b != [] && a[0] == b[0]
    requires forall k :: WithKey(o, a, k) == WithKey(o, b, k)
    ensures forall k :: WithKey(o, a[1..], k) == WithKey(o, b[1..], k)
  {
    forall k ensures WithKey(o, a[1..], k) == WithKey(o, b[1..], k) {
      var head := if Key(o, a[0]) == k then [a[0]] else [];
      assert WithKey(o, a, k) == head + WithKey(o, a[1..], k);
      assert WithKey(o, b, k) == head + WithKey(o, b[1..], k);
      assert WithKey(o, a[1..], k) == WithKey(o, a, k)[|head|..];
      assert WithKey(o, b[1..], k) == WithKey(o, b, k)[|head|..];
    }
  }

  /** Sorted sequences with the same key groups start with the same element. */
  lemma SameHead(o: Order, a: seq<Item>, b: seq<Item>)
    requires IsSorted(o, a) && IsSorted(o, b) && a != [] && b != []
    requires forall k :: WithKey(o, a, k) == WithKey(o, b, k)
    ensures a[0] == b[0]
  {
    SameLeastKey(o, a, b);
    WithKeyOfHead(o, a);
    WithKeyOfHead(o, b);
    assert WithKey(o, a, Key(o, a[0])) == WithKey(o, b, Key(o, a[0]));
  }

  /** A non-empty sequence has a non-empty key group, so it cannot share its groups with the empty one. */
  lemma NotEmptyGroups(o: Order, a: seq<Item>, b: seq<Item>)
    requires a != [] && b == []
    ensures exists k :: WithKey(o, a, k) != WithKey(o, b, k)
  {
    WithKeyOfHead(o, a);
    assert WithKey(o, b, Key(o, a[0])) == [];
  }

  /**
   A stable sort has only one possible answer: two sorted sequences that
   agree on the order of every group of equal keys are the same sequence.
   So any stable sorting algorithm, the one the JavaScript engine uses
   included, returns what `StableSort` returns.
   */
  lemma {:induction false} SortedStableIsUnique(o: Order, a: seq<Item>, b: seq<Item>)
    requires IsSorted(o, a) && IsSorted(o, b)
    requires forall k :: WithKey(o, a, k) == WithKey(o, b, k)
    ensures a == b
    decreases |a|
  {
    if a != [] && b == [] {
      NotEmptyGroups(o, a, b);
    } else if a == [] && b != [] {
      NotEmptyGroups(o, b, a);
    } else if a != [] {
      SameHead(o, a, b);
      TailsKeepKeyGroups(o, a, b);
      SortedTail(o, a);
      SortedTail(o, b);
      SortedStableIsUnique(o, a[1..], b[1..]);
      assert a == [a[0]] + a[1..] && b == [b[0]] + b[1..];
    }
  }

  /** The stable sort of `s` is any sorted sequence holding the key groups of `s`. */
  lemma StableSortIsSortedGroups(o: Order, s: seq<Item>, t: seq<Item>)
    requires IsSorted(o, t) && forall k :: WithKey(o, s, k) == WithKey(o, t, k)
    ensures StableSort(o, s) == t
  {
    StableSortIsStable(o, s);
    SortedStableIsUnique(o, StableSort(o, s), t);
  }
}

=== FILE: text.dfy ===
/**
 The JavaScript string and number built-ins that the packer relies on:
 `String.prototype.split` with a one-character separator, `Array.prototype.join`,
 `String.prototype.trim`, `parseInt` without a radix, and the decimal rendering
 of a non-negative integer. Strings are sequences of `char`.
 */
module Text {

  // ---------------------------------------------------------------- digits

  predicate IsDigit(c: char) {
    '0' <= c <= '9'
  }

  predicate IsHexDigit(c: char) {
    IsDigit(c) || 'a' <= c <= 'f' || 'A' <= c <= 'F'
  }

  /** A digit of radix 10 or 16, the only two radixes `parseInt` picks without an explicit radix. */
  predicate IsRadixDigit(c: char, hex: bool) {
    if hex then IsHexDigit(c) else IsDigit(c)
  }

  predicate AllDigits(s: string) {
    forall i :: 0 <= i < |s| ==> IsDigit(s[i])
  }

  predicate AllRadixDigits(s: string, hex: bool) {
    forall i :: 0 <= i < |s| ==> IsRadixDigit(s[i], hex)
  }

  function DigitValue(c: char, hex: bool): (d: nat)
    requires IsRadixDigit(c, hex)
    ensures d < (if hex then 16 else 10)
  {
    if IsDigit(c) then c as int - '0' as int
    else if 'a' <= c <= 'f' then c as int - 'a' as int + 10
    else c as int - 'A' as int + 10
  }

  /** The value of a digit string read left to right in radix 10 or 16. */
  function RadixValue(s: string, hex: bool): nat
    requires AllRadixDigits(s, hex)
  {
    if s == [] then 0
    else RadixValue(s[..|s| - 1], hex) * (if hex then 16 else 10) + DigitValue(s[|s| - 1], hex)
  }

  /** The value of a decimal digit string. */
  function DigitsValue(s: string): nat
    requires AllDigits(s)
  {
    RadixValue(s, false)
  }

  function Pow10(n: nat): (r: nat)
    ensures r >= 1
  {
    if n == 0 then 1 else 10 * Pow10(n - 1)
  }

  function DigitChar(d: nat): (c: char)
    requires d < 10
    ensures IsDigit(c) && DigitValue(c, false) == d
  {
    ('0' as int + d) as char
  }

  /** Decimal rendering of a non-negative integer, as JavaScript prints a safe integer. */
  function NatToString(n: nat): (r: string)
    ensures |r| > 0 && AllDigits(r)
    ensures DigitsValue(r) == n
    ensures |r| > 1 ==> r[0] != '0'
  {
    if n < 10 then
      var r := [DigitChar(n)];
      assert r[..0] == [];
      assert RadixValue(r, false) == RadixValue(r[..0], false) * 10 + DigitValue(r[0], false);
      r
    else
      var prefix := NatToString(n / 10);
      var r := prefix + [DigitChar(n % 10)];
      assert r[..|r| - 1] == prefix;
      r
  }

  lemma AllDigitsConcat(a: string, b: string)
    requires AllDigits(a) && AllDigits(b)
    ensures AllDigits(a + b)
  {
    forall i | 0 <= i < |a + b| ensures IsDigit((a + b)[i]) {
      if i < |a| { assert (a + b)[i] == a[i]; } else { assert (a + b)[i] == b[i - |a|]; }
    }
  }

  lemma ShiftedDigit(a: int, p: int, b: int, d: int)
    ensures (a * p + b) * 10 + d == a * (10 * p) + (b * 10 + d)
  {
  }

  /** Reading `a + b` reads `a`, shifts it past the digits of `b`, and adds `b`. */
  lemma {:induction false} DigitsValueConcat(a: string, b: string)
    requires AllDigits(a) && AllDigits(b)
    ensures AllDigits(a + b)
    ensures DigitsValue(a + b) == DigitsValue(a) * Pow10(|b|) + DigitsValue(b)
  {
    AllDigitsConcat(a, b);
    if b == [] {
      assert a + b == a;
    } else {
      var init := b[..|b| - 1];
      var d := DigitValue(b[|b| - 1], false);
      assert AllDigits(init);
      DigitsValueConcat(a, init);
      assert (a + b)[..|a + b| - 1] == a + init;
      assert (a + b)[|a + b| - 1] == b[|b| - 1];
      assert DigitsValue(a + b) == DigitsValue(a + init) * 10 + d;
      assert DigitsValue(b) == DigitsValue(init) * 10 + d;
      ShiftedDigit(DigitsValue(a), Pow10(|init|), DigitsValue(init), d);
    }
  }

  /** A digit string that is all zeros has value zero, and only such strings do. */
  lemma {:induction false} ZeroValueAllZeros(s: string)
    requires AllDigits(s)
    ensures DigitsValue(s) == 0 <==> forall i :: 0 <= i < |s| ==> s[i] == '0'
  {
    if s != [] {
      var init := s[..|s| - 1];
      assert AllDigits(init);
      ZeroValueAllZeros(init);
      if DigitsValue(s) == 0 {
        forall i | 0 <= i < |s| ensures s[i] == '0' {
          if i < |s| - 1 { assert s[i] == init[i]; }
        }
      }
      if forall i :: 0 <= i < |s| ==> s[i] == '0' {
        assert forall i :: 0 <= i < |init| ==> init[i] == '0' by {
          forall i | 0 <= i < |init| ensures init[i] == '0' { assert init[i] == s[i]; }
        }
      }
    }
  }

  /** Rendering inverts reading for canonical digit strings (no leading zero). */
  lemma {:induction false} NatToStringOfDigits(s: string)
    requires |s| > 0 && AllDigits(s)
    requires |s| > 1 ==> s[0] != '0'
    ensures NatToString(DigitsValue(s)) == s
  {
    var n := DigitsValue(s);
    var last := s[|s| - 1];
    var d := DigitValue(last, false);
    assert DigitChar(d) == last;
    if |s| > 1 {
      var init := s[..|s| - 1];
      assert AllDigits(init);
      assert DigitsValue(init) != 0 by {
        assert init[0] == s[0];
        ZeroValueAllZeros(init);
      }
      assert n == DigitsValue(init) * 10 + d;
      DivModTen(DigitsValue(init), d);
      NatToStringOfDigits(init);
      assert s == init + [last];
    } else {
      assert s[..0] == [];
      assert n == d;
      assert [last] == s;
    }
  }

  lemma DivModTen(v: nat, d: nat)
    requires d < 10
    ensures (v * 10 + d) / 10 == v && (v * 10 + d) % 10 == d
  {
  }

  // ------------------------------------------------------------ split/join

  /** Joins the parts with the separator between consecutive parts. */
  function Join(parts: seq<string>, sep: char): string
  {
    if |parts| == 0 then []
    else if |parts| == 1 then parts[0]
    else parts[0] + [sep] + Join(parts[1..], sep)
  }

  /**
   `s.split(sep)` for a one-character separator: the pieces between separators,
   so the empty string gives one empty piece and a trailing separator gives a
   trailing empty piece.
   */
  function Split(s: string, sep: char): (r: seq<string>)
    ensures |r| >= 1
    ensures forall i :: 0 <= i < |r| ==> sep !in r[i]
    ensures Join(r, sep) == s
  {
    if s == [] then [[]]
    else
      var rest := Split(s[1..], sep);
      if s[0] == sep then
        var r := [[]] + rest;
        assert r[1..] == rest;
        r
      else
        var r := [[s[0]] + rest[0]] + rest[1..];
        assert |r| > 1 ==> r[1..] == rest[1..];
        assert s == [s[0]] + s[1..];
        r
  }

  lemma {:induction false} SplitNoSeparator(p: string, sep: char)
    requires sep !in p
    ensures Split(p, sep) == [p]
  {
    if p != [] {
      assert sep !in p[1..];
      SplitNoSeparator(p[1..], sep);
      assert p == [p[0]] + p[1..];
    }
  }

  lemma {:induction false} SplitAfterPiece(p: string, sep: char, t: string)
    requires sep !in p
    ensures Split(p + [sep] + t, sep) == [p] + Split(t, sep)
  {
    if p == [] {
      assert p + [sep] + t == [sep] + t;
      assert ([sep] + t)[1..] == t;
    } else {
      assert (p + [sep] + t)[1..] == p[1..] + [sep] + t;
      assert sep !in p[1..];
      SplitAfterPiece(p[1..], sep, t);
      assert [p[0]] + p[1..] == p;
    }
  }

  /** Splitting undoes joining when no part contains the separator. */
  lemma {:induction false} SplitJoin(parts: seq<string>, sep: char)
    requires |parts| >= 1
    requires forall i :: 0 <= i < |parts| ==> sep !in parts[i]
    ensures Split(Join(parts, sep), sep) == parts
  {
    if |parts| == 1 {
      SplitNoSeparator(parts[0], sep);
    } else {
      SplitJoin(parts[1..], sep);
      SplitAfterPiece(parts[0], sep, Join(parts[1..], sep));
      assert [parts[0]] + parts[1..] == parts;
    }
  }

  /** A character that is neither the separator nor in any part stays out of the join. */
  lemma {:induction false} JoinAvoids(parts: seq<string>, sep: char, c: char)
    requires c != sep && forall i :: 0 <= i < |parts| ==> c !in parts[i]
    ensures c !in Join(parts, sep)
  {
    if |parts| > 1 {
      JoinAvoids(parts[1..], sep, c);
      assert forall i :: 0 <= i < |parts[1..]| ==> parts[1..][i] == parts[i + 1];
    }
  }

  /** A join starts with the first part's first character. */
  lemma JoinFirst(parts: seq<string>, sep: char)
    requires |parts| > 0 && |parts[0]| > 0
    ensures |Join(parts, sep)| > 0 && Join(parts, sep)[0] == parts[0][0]
  {
    if |parts| > 1 {
      assert Join(parts, sep) == parts[0] + ([sep] + Join(parts[1..], sep));
    }
  }

  /** A join ends with the last part's last character. */
  lemma {:induction false} JoinLast(parts: seq<string>, sep: char)
    requires |parts| > 0 && |parts[|parts| - 1]| > 0
    ensures |Join(parts, sep)| > 0
    ensures Join(parts, sep)[|Join(parts, sep)| - 1] == parts[|parts| - 1][|parts[|parts| - 1]| - 1]
  {
    if |parts| > 1 {
      var rest := parts[1..];
      assert rest[|rest| - 1] == parts[|parts| - 1];
      JoinLast(rest, sep);
    }
  }

  // ------------------------------------------------------------------ trim

  /** WhiteSpace or LineTerminator in the sense of ECMAScript's `trim`. */
  predicate IsJsSpace(c: char) {
    var k := c as int;
    k == 0x09 || k == 0x0A || k == 0x0B || k == 0x0C || k == 0x0D || k == 0x20
    || k == 0xA0 || k == 0x1680 || (0x2000 <= k <= 0x200A) || k == 0x2028 || k == 0x2029
    || k == 0x202F || k == 0x205F || k == 0x3000 || k == 0xFEFF
  }

  predicate AllSpace(s: string) {
    forall i :: 0 <= i < |s| ==> IsJsSpace(s[i])
  }

  /** The number of white-space characters in the run starting at position `i`. */
  function SpaceRun(s: string, i: nat): (n: nat)
    requires i <= |s|
    ensures i + n <= |s| && forall k :: i <= k < i + n ==> IsJsSpace(s[k])
    ensures i + n == |s| || !IsJsSpace(s[i + n])
    decreases |s| - i
  {
    if i < |s| && IsJsSpace(s[i]) then 1 + SpaceRun(s, i + 1) else 0
  }

  /** The number of white-space characters in the run ending just before position `e`. */
  function SpaceRunBack(s: string, e: nat): (n: nat)
    requires e <= |s|
    ensures n <= e && forall k :: e - n <= k < e ==> IsJsSpace(s[k])
    ensures n == e || !IsJsSpace(s[e - n - 1])
  {
    if e > 0 && IsJsSpace(s[e - 1]) then 1 + SpaceRunBack(s, e - 1) else 0
  }

  /** Drops leading white space. */
  function TrimStart(s: string): (r: string)
    ensures |r| <= |s| && r == s[|s| - |r|..]
    ensures AllSpace(s[..|s| - |r|])
    ensures r == [] || !IsJsSpace(r[0])
  {
    s[SpaceRun(s, 0)..]
  }

  /** Drops trailing white space. */
  function TrimEnd(s: string): (r: string)
    ensures |r| <= |s| && r == s[..|r|]
    ensures AllSpace(s[|r|..])
    ensures r == [] || !IsJsSpace(r[|r| - 1])
  {
    s[..|s| - SpaceRunBack(s, |s|)]
  }

  /** `s.trim()`: the text between the leading and the trailing white space. */
  function Trim(s: string): (r: string)
    ensures r == [] || (!IsJsSpace(r[0]) && !IsJsSpace(r[|r| - 1]))
  {
    TrimEnd(TrimStart(s))
  }

  /** What `trim` keeps is a piece of the text with only white space around it. */
  lemma TrimInfix(s: string)
    ensures var r := Trim(s);
      exists i :: 0 <= i <= |s| - |r| && r == s[i..i + |r|] && AllSpace(s[..i]) && AllSpace(s[i + |r|..])
  {
    SpacedInfix(s, TrimStart(s), Trim(s));
  }

  /** A prefix `r` of a suffix `t` of `s`, with only white space cut off on either side. */
  lemma SpacedInfix(s: string, t: string, r: string)
    requires |t| <= |s| && t == s[|s| - |t|..] && AllSpace(s[..|s| - |t|])
    requires |r| <= |t| && r == t[..|r|] && AllSpace(t[|r|..])
    ensures exists i :: 0 <= i <= |s| - |r| && r == s[i..i + |r|] && AllSpace(s[..i]) && AllSpace(s[i + |r|..])
  {
    var i := |s| - |t|;
    assert s[i..][..|r|] == s[i..i + |r|];
    assert s[i..][|r|..] == s[i + |r|..];
  }

  /** Trimming twice is trimming once. */
  lemma TrimIdempotent(s: string)
    ensures Trim(Trim(s)) == Trim(s)
  {
    var r := Trim(s);
    if r != [] {
      assert TrimStart(r) == r;
      assert TrimEnd(r) == r;
    }
  }

  /** Text that neither starts nor ends with white space is its own trim. */
  lemma TrimUnpadded(s: string)
    requires s != [] && !IsJsSpace(s[0]) && !IsJsSpace(s[|s| - 1])
    ensures TrimStart(s) == s && TrimEnd(s) == s && Trim(s) == s
  {
    assert SpaceRun(s, 0) == 0;
    assert SpaceRunBack(s, |s|) == 0;
  }

  /** One space before such text is trimmed away. */
  lemma TrimSpaceBefore(s: string)
    requires s != [] && !IsJsSpace(s[0]) && !IsJsSpace(s[|s| - 1])
    ensures Trim([' '] + s) == s
  {
    var t := [' '] + s;
    assert t[1] == s[0];
    assert SpaceRun(t, 1) == 0;
    assert TrimStart(t) == t[1..] == s;
    TrimUnpadded(s);
  }

  /** One space after such text is trimmed away. */
  lemma TrimSpaceAfter(s: string)
    requires s != [] && !IsJsSpace(s[0]) && !IsJsSpace(s[|s| - 1])
    ensures Trim(s + [' ']) == s
  {
    var t := s + [' '];
    assert t[0] == s[0] && t[|t| - 2] == s[|s| - 1];
    assert SpaceRun(t, 0) == 0;
    assert TrimStart(t) == t;
    assert SpaceRunBack(t, |t| - 1) == 0;
    assert TrimEnd(t) == t[..|s|] == s;
  }

  // -------------------------------------------------------------- parseInt

  /** A JavaScript number as produced by `parseInt`: NaN or an integer. */
  datatype JsInt = NaN | Int(value: int)

  /** The run of digits of the radix that starts at position `i`, as long as it goes. */
  function DigitRun(s: string, i: nat, hex: bool): (r: string)
    requires i <= |s|
    ensures i + |r| <= |s| && AllRadixDigits(r, hex)
    ensures forall k :: 0 <= k < |r| ==> s[i + k] == r[k]
    ensures i + |r| == |s| || !IsRadixDigit(s[i + |r|], hex)
    decreases |s| - i
  {
    if i < |s| && IsRadixDigit(s[i], hex) then [s[i]] + DigitRun(s, i + 1, hex) else []
  }

  /** The run of digits is the only string of digits found at `i` and not followed by another digit. */
  lemma {:induction false} DigitRunUnique(s: string, i: nat, hex: bool, d: string)
    requires i + |d| <= |s| && AllRadixDigits(d, hex)
    requires forall k :: 0 <= k < |d| ==> s[i + k] == d[k]
    requires i + |d| == |s| || !IsRadixDigit(s[i + |d|], hex)
    ensures DigitRun(s, i, hex) == d
    decreases |d|
  {
    if d != [] {
      assert s[i] == d[0] && IsRadixDigit(d[0], hex);
      var tail := d[1..];
      assert forall k :: 0 <= k < |tail| ==> s[i + 1 + k] == tail[k] by {
        forall k | 0 <= k < |tail| ensures s[i + 1 + k] == tail[k] {
          assert tail[k] == d[k + 1];
        }
      }
      DigitRunUnique(s, i + 1, hex, tail);
      assert d == [d[0]] + tail;
    }
  }

  /** The position after the leading white space and an optional sign. */
  function SignEnd(s: string): (b: nat)
    ensures b <= |s|
  {
    var a := SpaceRun(s, 0);
    if a < |s| && (s[a] == '-' || s[a] == '+') then a + 1 else a
  }

  /** The first character after the leading white space is a minus sign. */
  predicate Negative(s: string) {
    var a := SpaceRun(s, 0);
    a < |s| && s[a] == '-'
  }

  /** A `0x` or `0X` prefix starts at position `b`. */
  predicate HexPrefixAt(s: string, b: nat) {
    b + 1 < |s| && s[b] == '0' && (s[b + 1] == 'x' || s[b + 1] == 'X')
  }

  /**
   `parseInt(s)` with no radix: skip leading white space, take an optional sign,
   switch to radix 16 after a `0x`/`0X` prefix, then read the longest run of
   digits; no digit at all gives NaN.
   */
  function ParseInt(s: string): JsInt
  {
    var b := SignEnd(s);
    var hex := HexPrefixAt(s, b);
    var digits := DigitRun(s, if hex then b + 2 else b, hex);
    if digits == [] then NaN
    else
      var v: int := RadixValue(digits, hex);
      Int(if Negative(s) then -v else v)
  }

  /** Text without a single decimal digit is not a number; a number is read from some digit of the text. */
  lemma ParseIntNeedsDigit(s: string)
    ensures ParseInt(s).Int? ==> exists i :: 0 <= i < |s| && IsDigit(s[i])
  {
    var b := SignEnd(s);
    var hex := HexPrefixAt(s, b);
    var c := if hex then b + 2 else b;
    if ParseInt(s).Int? {
      if hex {
        assert IsDigit(s[b]);
      } else {
        assert s[c] == DigitRun(s, c, hex)[0];
      }
    }
  }

  /** `parseInt` reads a leading decimal numeral and ignores whatever follows a non-digit. */
  lemma ParseIntDecimalPrefix(digits: string, rest: string)
    requires |digits| > 0 && AllDigits(digits)
    requires rest == [] || !IsDigit(rest[0])
    requires !(digits == "0" && rest != [] && (rest[0] == 'x' || rest[0] == 'X'))
    ensures ParseInt(digits + rest) == Int(DigitsValue(digits))
  {
    var s := digits + rest;
    assert s[0] == digits[0];
    assert !HexPrefixAt(s, 0) by {
      if |digits| >= 2 {
        assert s[1] == digits[1];
      } else if |s| >= 2 {
        assert s[1] == rest[0];
      }
    }
    assert DigitRun(s, 0, false) == digits by {
      assert forall k :: 0 <= k < |digits| ==> s[k] == digits[k];
      assert |digits| == |s| || s[|digits|] == rest[0];
      DigitRunUnique(s, 0, false, digits);
    }
    ParseIntAtDigit(s);
  }

  /** `parseInt` of text that starts with a decimal digit and no `0x` prefix reads its leading digits. */
  lemma ParseIntAtDigit(s: string)
    requires |s| > 0 && IsDigit(s[0]) && !HexPrefixAt(s, 0)
    ensures ParseInt(s) == Int(DigitsValue(DigitRun(s, 0, false)))
  {
    assert SpaceRun(s, 0) == 0;
    assert SignEnd(s) == 0 && !Negative(s);
  }

  /** The decimal rendering of an index reads back as the same number. */
  lemma ParseIntNatToString(n: nat)
    ensures ParseInt(NatToString(n)) == Int(n)
  {
    var s := NatToString(n);
    assert s + [] == s;
    ParseIntDecimalPrefix(s, []);
  }
}

=== FILE: token.dfy ===
/**
 The item pattern of the packer, unanchored and case-insensitive, applied
 to one token: a named index group of digits, a comma, a named weight group
 of digits, a point and digits, a comma, any one character (the currency
 marker), and a named cost group of digits with an optional fraction.

 The pattern is matched as a deterministic scan. Every digit run in it but
 the last is followed by a fixed non-digit character (a comma, a point, a
 comma), so backtracking into a shorter run can never succeed: each run is
 the maximal run of digits. The cost run is greedy and ends the pattern, as
 does its optional fraction, which is taken whenever a point followed by a
 digit comes next. The first position where the pattern matches is the
 match reported; the marker may be any character but a line terminator, and
 case-insensitivity changes nothing for digits and punctuation.
 */
module Token {
  import opened Wrappers
  import opened Text

  /** The characters the pattern's `.` refuses. */
  predicate IsLineTerminator(c: char) {
    c == '\n' || c == '\r' || c as int == 0x2028 || c as int == 0x2029
  }

  /** A matched number: its whole digits and its fraction digits (empty when there is no fraction). */
  datatype Decimal = Decimal(whole: string, frac: string)

  /** A successful match: where it starts and the text of each group. */
  datatype Match = Match(at: nat, index: string, weight: Decimal, marker: char, cost: Decimal)

  predicate WellFormedDecimal(d: Decimal) {
    |d.whole| > 0 && AllDigits(d.whole) && AllDigits(d.frac)
  }

  /** The groups have the shapes the pattern gives them. */
  predicate WellFormed(m: Match) {
    && |m.index| > 0 && AllDigits(m.index)
    && WellFormedDecimal(m.weight) && |m.weight.frac| > 0
    && !IsLineTerminator(m.marker)
    && WellFormedDecimal(m.cost)
  }

  function DecimalText(d: Decimal): string {
    d.whole + (if d.frac == [] then [] else ['.'] + d.frac)
  }

  /** The text from the comma after the weight to the end of the cost. */
  function TailText(marker: char, cost: Decimal): string {
    [','] + ([marker] + DecimalText(cost))
  }

  /** The text the pattern consumed. */
  function MatchText(m: Match): string {
    m.index + ([','] + (DecimalText(m.weight) + TailText(m.marker, m.cost)))
  }

  /** `x` is written in `s` starting at position `i`. */
  predicate At(x: string, s: string, i: nat) {
    i + |x| <= |s| && forall k :: 0 <= k < |x| ==> s[i + k] == x[k]
  }

  /** Two pieces written one after the other make their concatenation. */
  lemma AtThen(x: string, y: string, s: string, i: nat)
    requires At(x, s, i) && At(y, s, i + |x|)
    ensures At(x + y, s, i)
  {
    forall k | |x| <= k < |x| + |y| ensures s[i + k] == (x + y)[k] {
      assert s[i + |x| + (k - |x|)] == y[k - |x|];
    }
  }

  /** Conversely, a piece written in `s` shows each of its two halves. */
  lemma AtSplit(x: string, y: string, s: string, i: nat)
    requires At(x + y, s, i)
    ensures At(x, s, i) && At(y, s, i + |x|)
  {
    forall k | 0 <= k < |x| ensures s[i + k] == x[k] {
      assert s[i + k] == (x + y)[k];
    }
    forall k | 0 <= k < |y| ensures s[i + |x| + k] == y[k] {
      assert s[i + (|x| + k)] == (x + y)[|x| + k];
    }
  }

  /** The first character of a written piece. */
  lemma AtFirst(x: string, s: string, i: nat)
    requires At(x, s, i) && |x| > 0
    ensures s[i] == x[0]
  {
    assert s[i + 0] == x[0];
  }

  /** The run of digits in `s` starting at `i`, as long as it goes. */
  function Digits(s: string, i: nat): (r: string)
    requires i <= |s|
    ensures AllDigits(r) && At(r, s, i)
    ensures i + |r| == |s| || !IsDigit(s[i + |r|])
  {
    DigitRun(s, i, false)
  }

  /** A run of digits followed by a non-digit is read whole. */
  lemma DigitsExact(digits: string, s: string, i: nat)
    requires AllDigits(digits) && At(digits, s, i)
    requires i + |digits| == |s| || !IsDigit(s[i + |digits|])
    ensures Digits(s, i) == digits
  {
    DigitRunUnique(s, i, false, digits);
  }

  /** Digits with an optional fraction at position `i` of `s`, greedy. */
  function ScanCost(s: string, i: nat): (r: Option<Decimal>)
    requires i <= |s|
    ensures r.Some? ==> WellFormedDecimal(r.value) && At(DecimalText(r.value), s, i)
  {
    var whole := Digits(s, i);
    var j := i + |whole|;
    if whole == [] then None
    else if j + 1 < |s| && s[j] == '.' && IsDigit(s[j + 1]) then
      var c := Decimal(whole, Digits(s, j + 1));
      AtThen(['.'], c.frac, s, j);
      AtThen(c.whole, ['.'] + c.frac, s, i);
      Some(c)
    else Some(Decimal(whole, []))
  }

  /** A comma and the marker character followed by the cost, at position `i` of `s`. */
  function ScanTail(s: string, i: nat): (r: Option<(char, Decimal)>)
    requires i <= |s|
    ensures r.Some? ==> !IsLineTerminator(r.value.0) && WellFormedDecimal(r.value.1)
    ensures r.Some? ==> At(TailText(r.value.0, r.value.1), s, i)
  {
    if i + 2 > |s| || s[i] != ',' || IsLineTerminator(s[i + 1]) then None
    else
      match ScanCost(s, i + 2)
      case None => None
      case Some(c) =>
        AtThen([s[i + 1]], DecimalText(c), s, i + 1);
        AtThen([','], [s[i + 1]] + DecimalText(c), s, i);
        Some((s[i + 1], c))
  }

  /** The weight (digits, a point, digits) and the tail, at position `i` of `s`. */
  function ScanWeight(s: string, i: nat): (r: Option<(Decimal, char, Decimal)>)
    requires i <= |s|
    ensures r.Some? ==> WellFormedDecimal(r.value.0) && |r.value.0.frac| > 0
    ensures r.Some? ==> !IsLineTerminator(r.value.1) && WellFormedDecimal(r.value.2)
    ensures r.Some? ==> At(DecimalText(r.value.0) + TailText(r.value.1, r.value.2), s, i)
  {
    var whole := Digits(s, i);
    var j := i + |whole| + 1;
    if whole == [] || j > |s| || s[j - 1] != '.' then None
    else
      var frac := Digits(s, j);
      if frac == [] then None
      else
        match ScanTail(s, j + |frac|)
        case None => None
        case Some(tail) =>
          var w := Decimal(whole, frac);
          WeightText(w, TailText(tail.0, tail.1), s, i);
          Some((w, tail.0, tail.1))
  }

  /** The pieces of a weight and what follows it, written in order. */
  lemma WeightText(w: Decimal, tail: string, s: string, i: nat)
    requires |w.frac| > 0 && At(w.whole, s, i) && At(['.'], s, i + |w.whole|)
    requires At(w.frac, s, i + |w.whole| + 1) && At(tail, s, i + |w.whole| + 1 + |w.frac|)
    ensures At(DecimalText(w) + tail, s, i)
  {
    AtThen(w.frac, tail, s, i + |w.whole| + 1);
    AtThen(['.'], w.frac + tail, s, i + |w.whole|);
    AtThen(w.whole, ['.'] + (w.frac + tail), s, i);
    assert w.whole + (['.'] + (w.frac + tail)) == DecimalText(w) + tail;
  }

  /** The pattern tried at position `p` only. */
  function MatchAt(t: string, p: nat): (r: Option<Match>)
    requires p <= |t|
    ensures r.Some? ==> r.value.at == p && WellFormed(r.value) && At(MatchText(r.value), t, p)
  {
    var index := Digits(t, p);
    var j := p + |index| + 1;
    if index == [] || j > |t| || t[j - 1] != ',' then None
    else
      match ScanWeight(t, j)
      case None => None
      case Some(w) =>
        var m := Match(p, index, w.0, w.1, w.2);
        AtThen([','], DecimalText(m.weight) + TailText(m.marker, m.cost), t, j - 1);
        AtThen(m.index, [','] + (DecimalText(m.weight) + TailText(m.marker, m.cost)), t, p);
        Some(m)
  }

  /** The leftmost match at or after `p`. */
  function ScanFrom(t: string, p: nat): (r: Option<Match>)
    requires p <= |t|
    ensures r.Some? ==> p <= r.value.at <= |t| && MatchAt(t, r.value.at) == r
    decreases |t| - p
  {
    match MatchAt(t, p)
    case Some(m) => Some(m)
    case None => if p == |t| then None else ScanFrom(t, p + 1)
  }

  /** Where the pattern does not match, the scan moves on. */
  lemma ScanFromMiss(t: string, p: nat)
    requires p < |t| && MatchAt(t, p).None?
    ensures ScanFrom(t, p) == ScanFrom(t, p + 1)
  {
  }

  /** Where the pattern matches, the scan stops. */
  lemma ScanFromHit(t: string, p: nat)
    requires p <= |t| && MatchAt(t, p).Some?
    ensures ScanFrom(t, p) == MatchAt(t, p)
  {
  }

  /** No position before the one the scan reports matches; when it reports none, none matches. */
  lemma {:induction false} ScanFromLeftmost(t: string, p: nat, q: nat)
    requires p <= q <= |t|
    requires ScanFrom(t, p).Some? ==> q < ScanFrom(t, p).value.at
    ensures MatchAt(t, q).None?
    decreases q - p
  {
    if MatchAt(t, p).None? && p < q {
      ScanFromMiss(t, p);
      ScanFromLeftmost(t, p + 1, q);
    }
  }

  /** Running the pattern on a token: the leftmost match, if any; the pattern accepts the token exactly when there is one. */
  function Scan(t: string): (r: Option<Match>)
    ensures r.Some? ==> WellFormed(r.value)
  {
    ScanFrom(t, 0)
  }

  /** The match reported is the leftmost one, and none is reported only when there is none. */
  lemma ScanLeftmost(t: string, q: nat)
    requires q <= |t|
    ensures Scan(t).Some? ==> MatchAt(t, Scan(t).value.at) == Scan(t)
    ensures Scan(t).Some? && q < Scan(t).value.at ==> MatchAt(t, q).None?
    ensures Scan(t).None? ==> MatchAt(t, q).None?
  {
    if Scan(t).None? || q < Scan(t).value.at {
      ScanFromLeftmost(t, 0, q);
    }
  }

  /**
   What follows a cost at position `j` cannot extend it: not a digit, and not
   a `.digit` fraction when the cost has none.
   */
  predicate EndsCost(c: Decimal, s: string, j: nat) {
    j >= |s| || (!IsDigit(s[j]) && (c.frac != [] || !(s[j] == '.' && j + 1 < |s| && IsDigit(s[j + 1]))))
  }

  lemma ScanCostComplete(c: Decimal, s: string, i: nat)
    requires WellFormedDecimal(c) && At(DecimalText(c), s, i) && EndsCost(c, s, i + |DecimalText(c)|)
    ensures ScanCost(s, i) == Some(c)
  {
    if c.frac == [] {
      assert DecimalText(c) == c.whole;
      DigitsExact(c.whole, s, i);
    } else {
      var j := i + |c.whole|;
      AtSplit(c.whole, ['.'] + c.frac, s, i);
      AtSplit(['.'], c.frac, s, j);
      AtFirst(['.'], s, j);
      AtFirst(c.frac, s, j + 1);
      DigitsExact(c.whole, s, i);
      DigitsExact(c.frac, s, j + 1);
    }
  }

  lemma ScanTailComplete(marker: char, c: Decimal, s: string, i: nat)
    requires !IsLineTerminator(marker) && WellFormedDecimal(c)
    requires At(TailText(marker, c), s, i) && EndsCost(c, s, i + |TailText(marker, c)|)
    ensures ScanTail(s, i) == Some((marker, c))
  {
    AtSplit([','], [marker] + DecimalText(c), s, i);
    AtSplit([marker], DecimalText(c), s, i + 1);
    AtFirst([','], s, i);
    AtFirst([marker], s, i + 1);
    ScanCostComplete(c, s, i + 2);
  }

  lemma ScanWeightComplete(w: Decimal, marker: char, c: Decimal, s: string, i: nat)
    requires WellFormedDecimal(w) && |w.frac| > 0
    requires !IsLineTerminator(marker) && WellFormedDecimal(c)
    requires At(DecimalText(w) + TailText(marker, c), s, i)
    requires EndsCost(c, s, i + |DecimalText(w)| + |TailText(marker, c)|)
    ensures ScanWeight(s, i) == Some((w, marker, c))
  {
    var tail := TailText(marker, c);
    var j := i + |w.whole| + 1;
    var k := j + |w.frac|;
    WeightPieces(w, tail, s, i);
    assert s[j - 1] == '.' by { AtFirst(['.'], s, j - 1); }
    assert Digits(s, i) == w.whole by { DigitsExact(w.whole, s, i); }
    assert Digits(s, j) == w.frac by {
      AtFirst(tail, s, k);
      DigitsExact(w.frac, s, j);
    }
    ScanTailComplete(marker, c, s, k);
    ScanWeightFromParts(w, marker, c, s, i);
  }

  /** Conversely to `WeightText`, a written weight and tail show each of their pieces. */
  lemma WeightPieces(w: Decimal, tail: string, s: string, i: nat)
    requires |w.frac| > 0 && At(DecimalText(w) + tail, s, i)
    ensures At(w.whole, s, i) && At(['.'], s, i + |w.whole|)
    ensures At(w.frac, s, i + |w.whole| + 1) && At(tail, s, i + |w.whole| + 1 + |w.frac|)
  {
    assert DecimalText(w) + tail == w.whole + (['.'] + (w.frac + tail));
    AtSplit(w.whole, ['.'] + (w.frac + tail), s, i);
    AtSplit(['.'], w.frac + tail, s, i + |w.whole|);
    AtSplit(w.frac, tail, s, i + |w.whole| + 1);
  }

  lemma ScanWeightFromParts(w: Decimal, marker: char, c: Decimal, s: string, i: nat)
    requires i + |w.whole| < |s| && Digits(s, i) == w.whole && w.whole != [] && s[i + |w.whole|] == '.'
    requires Digits(s, i + |w.whole| + 1) == w.frac && w.frac != []
    requires ScanTail(s, i + |w.whole| + 1 + |w.frac|) == Some((marker, c))
    ensures ScanWeight(s, i) == Some((w, marker, c))
  {
  }

  /** Conversely, well-formed groups written at `m.at` and properly ended are matched there. */
  lemma MatchAtComplete(t: string, m: Match)
    requires WellFormed(m) && At(MatchText(m), t, m.at) && EndsCost(m.cost, t, m.at + |MatchText(m)|)
    ensures MatchAt(t, m.at) == Some(m)
  {
    var p := m.at;
    var y := DecimalText(m.weight) + TailText(m.marker, m.cost);
    AtSplit(m.index, [','] + y, t, p);
    AtSplit([','], y, t, p + |m.index|);
    AtFirst([','], t, p + |m.index|);
    DigitsExact(m.index, t, p);
    ScanWeightComplete(m.weight, m.marker, m.cost, t, p + |m.index| + 1);
  }

  /** A token written as `(` + groups + `)` scans back to exactly those groups. */
  lemma ScanParenthesized(m: Match)
    requires WellFormed(m) && m.at == 1
    ensures Scan("(" + MatchText(m) + ")") == Some(m)
  {
    var t := "(" + MatchText(m) + ")";
    assert MatchAt(t, 0).None? by {
      assert Digits(t, 0) == [];
    }
    assert MatchAt(t, 1) == Some(m) by {
      assert At(MatchText(m), t, 1) by {
        forall k | 0 <= k < |MatchText(m)| ensures t[1 + k] == MatchText(m)[k] { }
      }
      MatchAtComplete(t, m);
    }
    ScanFromMiss(t, 0);
    ScanFromHit(t, 1);
  }

  /** A token without a single digit never matches: the index group needs one. */
  lemma ScanNeedsDigit(t: string)
    ensures (forall i :: 0 <= i < |t| ==> !IsDigit(t[i])) ==> Scan(t).None?
  {
    if Scan(t).Some? {
      var m := Scan(t).value;
      assert MatchAt(t, m.at) == Some(m);
      AtFirst(MatchText(m), t, m.at);
      assert MatchText(m)[0] == m.index[0];
    }
  }
}

=== FILE: types.dfy ===
/** The records the packer passes around: a package item and a parsed package line. */
module Types {
  import opened Text

  /**
   One candidate item: its index as written in the line, its weight and its cost.
   Weights and costs are exact decimals here.
   */
  datatype Item = Item(index: nat, weight: real, cost: real)

  /**
   One parsed line: the weight the package may not exceed (the result of
   `parseInt`, so possibly NaN) and the items in line order.
   */
  datatype Package = Package(totalWeight: JsInt, items: seq<Item>)
}

=== FILE: utils.dfy ===
/** The comparators and the weight total shared by the packer. */
module Utils {
  import opened Types

  /** Comparator that orders items from the most to the least expensive. */
  function SortReverseByCost(a: Item, b: Item): (r: int)
    ensures r == -1 || r == 0 || r == 1
    ensures r == -1 <==> a.cost > b.cost
    ensures r == 1 <==> a.cost < b.cost
  {
    if a.cost > b.cost then -1 else if a.cost < b.cost then 1 else 0
  }

  /** Comparator that orders items from the lightest to the heaviest. */
  function SortByWeight(a: Item, b: Item): (r: int)
    ensures r == -1 || r == 0 || r == 1
    ensures r == -1 <==> a.weight < b.weight
    ensures r == 1 <==> a.weight > b.weight
  {
    if a.weight < b.weight then -1 else if a.weight > b.weight then 1 else 0
  }

  /** Swapping the arguments of either comparator negates its answer. */
  lemma ComparatorsAntisymmetric(a: Item, b: Item)
    ensures SortReverseByCost(a, b) == -SortReverseByCost(b, a)
    ensures SortByWeight(a, b) == -SortByWeight(b, a)
  {
  }

  /** Total weight, accumulated from the left starting at zero. */
  function WeightSum(items: seq<Item>): (r: real)
    ensures (forall i :: 0 <= i < |items| ==> items[i].weight >= 0.0) ==> r >= 0.0
  {
    if items == [] then 0.0 else WeightSum(items[..|items| - 1]) + items[|items| - 1].weight
  }

  /** Total cost, accumulated the same way the packer accumulates it. */
  function CostSum(items: seq<Item>): real
  {
    if items == [] then 0.0 else CostSum(items[..|items| - 1]) + items[|items| - 1].cost
  }

  lemma WeightSumAppend(xs: seq<Item>, x: Item)
    ensures WeightSum([]) == 0.0
    ensures WeightSum(xs + [x]) == WeightSum(xs) + x.weight
    ensures CostSum(xs + [x]) == CostSum(xs) + x.cost
  {
    assert (xs + [x])[..|xs|] == xs;
  }

  /** The total of a concatenation is the sum of the totals. */
  lemma {:induction false} WeightSumConcat(xs: seq<Item>, ys: seq<Item>)
    ensures WeightSum(xs + ys) == WeightSum(xs) + WeightSum(ys)
    decreases |ys|
  {
    if ys == [] {
      assert xs + ys == xs;
    } else {
      var init := ys[..|ys| - 1];
      var y := ys[|ys| - 1];
      assert xs + ys == (xs + init) + [y];
      assert ys == init + [y];
      WeightSumAppend(xs + init, y);
      WeightSumAppend(init, y);
      WeightSumConcat(xs, init);
    }
  }
}

=== FILE: wrappers.dfy ===
/** Failure-carrying results used by the parser and the selector. */
module Wrappers {

  /** A value that may be absent. */
  datatype Option<+T> = None | Some(value: T)

  /** Either a computed value or the error that stopped the computation. */
  datatype Result<+T, +E> = Ok(value: T) | Err(error: E)
}
